=== FILE: README.md ===
# WP Parser importer and configuration, modelled in Dafny

This project models the core of WP Parser, the WordPress plugin that turns
a parsed PHP code base into WordPress content.

The importer (`WP_Parser\Importer`) takes one parsed file at a time and
reconciles its functions, classes, methods and hooks into the WordPress
post and term store:
- one post per entity, found again by (slug, post type, parent);
- a `@since` term, `@package`/`@subpackage` terms and a source-file term on each post;
- meta rows for line numbers, arguments, tags and flags;
- a list of human-readable errors for writes that WordPress refuses.

The configuration class (`WP_Parser\Config`) reads and writes one stored
option map through a fixed set of defaults.

The store is an immutable record threaded through pure functions:
- posts keyed by (slug, post type, parent);
- terms keyed by (taxonomy, slug, parent);
- each post's term set per taxonomy;
- the set of (post, meta key) pairs written.

WordPress itself is a parameter, `Env`:
- `sanitize_title` is an uninterpreted slug function;
- `rejectsPost` decides whether `wp_insert_post`/`wp_update_post` fails for a given set of columns;
- `rejectsTerm` gives the `WP_Error` message `wp_insert_term` would return, if any.

Because the oracle is deterministic, replaying an import is deterministic too.

Files:
- `wrappers.dfy`: `Option` and `Result`.
- `entities.dfy`: the parsed tree, first-match tag lookup, and the `/` to `_` path rewrite.
- `store.dfy`: the store, its invariants, term lookup-or-create, `wp_set_object_terms`, meta writes.
- `upsert.dfy`: the lookup-before-write post upsert and its error string.
- `classify.dfy`: `@since` and package term resolution, including the subpackage parent rule.
- `import_item.dfy`: `import_item` as a whole, with attachment, idempotence and filtering lemmas.
- `orchestrator.dfy`: `import_hook`, `import_method`, `import_class`, `import_function`.
- `file_import.dfy`: `import_file`, with its three throttled loops.
- `term_cache.dfy`: `insert_term` and its per-run memo.
- `config.dfy`: `Config`.

Behaviour of the code that the model keeps on purpose:
- **Packages.** `wp_set_object_terms` is called without `$append`, so it *replaces* the post's package terms. When both a package and a subpackage resolve, the post ends with only the subpackage term (lib/class-importer.php:486).
- **Failed class or method.** When a class or method post cannot be written, its methods or hooks are not imported at all (lib/class-importer.php:257-259, 293-295). Only a function's hooks go ahead, with parent 0.
- **Term cache.** `insert_term` never caches a failure (lib/class-importer.php:113-115). Its memo key is (taxonomy, name) and does not include the parent (lib/class-importer.php:104).
- **Callers of `insert_term`.** `import_item` and `import_file` never call `insert_term`. They call `term_exists`/`wp_insert_term` directly, so the memo plays no part in an import. It is modelled on its own in `TermCache`.

## Model

| member | source | states |
|---|---|---|
| Entities.FirstTag | lib/class-importer.php:421-424 | a tag value is found iff some tag has the name, and it is the content of the first such tag (`array_shift` of the filtered list) |
| Entities.ReplaceSlashes | lib/class-importer.php:130 | same length as the path, every `/` becomes `_`, every other character is kept |
| Store.ResolveTerm | lib/class-importer.php:425-430 | an existing term is reused without a write; otherwise the term is created with a fresh id unless WordPress refuses, in which case the store is unchanged and the refusal message is returned; afterwards the lookup is settled and no existing term moves |
| Store.SetObjectTerms | lib/class-importer.php:434 | the post's term set in that taxonomy becomes exactly the given set (replace, not append); nothing else changes |
| Store.WriteMeta | lib/class-importer.php:497-501 | a (post, key) meta row exists afterwards iff it existed before or the key is one of those written for this post; posts, terms and attachments are untouched |
| PostUpsert.Upsert | lib/class-importer.php:374-394 | an existing post under the key keeps its id and is rewritten only when a column differs; otherwise a post with an id no other post has is inserted; a refused write changes nothing; no other post changes |
| PostUpsert.UpsertError | lib/class-importer.php:397-416 | the message starts with the kind's indentation and "Problem inserting/updating post for " and ends with the kind word and the quoted item name |
| PostUpsert.UpsertErrorNamesItem | lib/class-importer.php:397-416 | for one kind and parent, different item names always give different messages |
| Classify.AttachTerm | lib/class-importer.php:425-436 | the attached term is the one the store holds under the key afterwards; a refused term attaches nothing and changes nothing; otherwise the post's slot for that taxonomy holds exactly that term |
| Classify.AssignSince | lib/class-importer.php:419-437 | no `@since` means no lookup and no attachment; otherwise the version's term under parent 0 is attached when it resolves |
| Classify.PackageLabel | lib/class-importer.php:439-452 | a package name exists iff the item or the file has the tag; the item's own first tag wins, else the file's first tag |
| Classify.AssignPackages | lib/class-importer.php:454-491 | the main package is looked up under parent 0; the subpackage under the main term when it resolved, else under 0; a refusal of one does not stop the other; the package slot ends as the subpackage term, else the main term, else untouched |
| ItemImport.AssignTerms | lib/class-importer.php:419-501 | after the term steps every lookup is settled; the post's since, package and file slots are exactly the resolved terms; exactly the kind's meta keys are added (no arguments for classes); posts are untouched |
| ItemImport.ImportItem | lib/class-importer.php:326-417 | no id and no error iff the item is `@ignore`d, or `@internal` without internal import, and then the store is untouched; a refused write records exactly one error naming kind and item and writes nothing; a visible item WordPress accepts gets an id; the post then sits under its key with the item's columns, reusing an existing id; no other post, no other post's term slots and no other post's meta change |
| ItemImport.ImportItemAttaches | lib/class-importer.php:419-501 | a stored item carries the file's term, its resolved `@since` term, and its subpackage term or else its main package term; a taxonomy with no tag keeps exactly the terms it had; every label's term exists afterwards unless WordPress refuses it, so every tag whose term is accepted is attached; the meta rows are written |
| ItemImport.AssignTermsTwice | lib/class-importer.php:419-501 | a second term assignment after the first leaves the store exactly as it was |
| ItemImport.ImportItemIdempotent | lib/class-importer.php:326-501 | importing the same item again into the store the first import left changes nothing and gives the same id and errors |
| Orchestrator.ImportHook | lib/class-importer.php:224-242 | a cross-reference stub (either sentinel description, or both descriptions empty) or a filtered hook leaves everything untouched; any other hook ends holding its columns under (slug, hook, parent), or WordPress refused them and the error was recorded; an accepted hook gets an id and its type meta; the only error possible is that one refusal; no other post changes, and in a valid store, their term slots and meta rows do not change either |
| Orchestrator.ImportHooks | lib/class-importer.php:303-307 | every hook that passes the filters and is the last of the list written under its key (stubs and filtered hooks write nothing) holds its columns under the given parent, or its refusal was recorded; only the hook posts these hooks write change, and of the other posts, in a valid store, their term slots and meta rows do not change either; every error is the refusal of one hook of the list that reached the write |
| Orchestrator.ImportMethod | lib/class-importer.php:288-311 | the method ends holding its columns under the class, or exactly its refusal was recorded; an accepted visible method gets an id and its method meta rows (arguments, lines, flags, visibility, tags); a filtered or unstored method writes nothing; when it is stored, its hooks hold their columns under the method's id and every error is a refusal of one of them; besides its own post, only hook posts under its id change, and of the other posts, in a valid store, their term slots and meta rows do not change either |
| Orchestrator.ImportMethods | lib/class-importer.php:268-273 | every visible method, renamed `Class::method`, that is the last written under its key holds its columns under the class id, or its refusal was recorded; besides hooks, only the method posts written change, all under the class id, and of the other posts, in a valid store, their term slots and meta rows do not change either; nothing is reported when WordPress refuses nothing |
| Orchestrator.ImportClass | lib/class-importer.php:252-276 | the class ends holding its columns at the top level, or exactly its refusal was recorded; an accepted visible class gets an id and its class meta rows (lines, flags, extends, implements, properties, tags); a filtered or unstored class writes nothing and imports no method; a stored class's methods hold their columns under its id; besides its own post and hooks, only method posts under its id change, and of the other posts, in a valid store, their term slots and meta rows do not change either; nothing is reported when WordPress refuses nothing |
| Orchestrator.ImportFunction | lib/class-importer.php:207-213 | the function ends holding its columns under its parent, or its refusal was recorded; an accepted visible function gets an id, a filtered one none; its hooks always hold their columns, under the function's id or, when it was not stored, under 0; every error is its own refusal or a refusal of one of its hooks; only its own post, when stored, and hook posts under that parent change, and of the other posts, in a valid store, their term slots and meta rows do not change either |
| FileImport.ImportEntry | lib/class-importer.php:157-187 | each top-level entry goes to its own handler with parent 0 (the calls at lines 157-158, 172-173 and 186-187) and ends holding its columns or with its refusal recorded; an entry that never reaches the write leaves its key alone; a hook touches no other post, a function or class no other function or class post, and in a valid store their term slots and meta rows stay as they were too; nothing is reported when WordPress refuses nothing |
| FileImport.ImportEntries | lib/class-importer.php:154-166 | every entry of the collection that is the last written under its key holds its columns or has its refusal recorded; posts of the collection's kind that no entry writes, with their term slots and meta rows in a valid store, do not change; the pauses taken equal the number of multiples of ten the counter passes, and none when pauses are skipped; nothing is reported when WordPress refuses nothing |
| FileImport.ImportContents | lib/class-importer.php:154-196 | functions, classes and hooks that are the last written under their key in their collection each hold their columns or have their refusal recorded, after all three loops; function and class posts that no function or class entry writes, with their term slots and meta rows in a valid store, do not change; the pauses number floor(n/10) per collection, none when pauses are skipped; nothing is reported when WordPress refuses nothing |
| FileImport.ImportFile | lib/class-importer.php:127-197 | a file whose term is missing and refused records exactly one "Problem creating file tax item" error and writes nothing; otherwise the file's term is reused or created under the slug of its path with `/` turned to `_`, every top-level entry that is the last written under its key holds its columns or has its refusal recorded, function and class posts that no top-level entry writes keep their post, term slots and meta rows (in a valid store), and nothing is reported when WordPress refuses nothing |
| TermCache.InsertTerm | lib/class-importer.php:103-118 | a memo hit returns the remembered term without touching the store; a miss looks up, then creates; only successes are remembered; remembered terms stay terms of the store |
| TermCache.InsertTermMemoised | lib/class-importer.php:104-106 | after a success, the same taxonomy and name returns the same term from the memo whatever parent is asked for, writing nothing |
| TermCache.InsertTermRetriesFailure | lib/class-importer.php:113-115 | a failure is not remembered, so the next call asks the store again (and is refused again) |
| Config.GetDefault | lib/class-config.php:70-72 | the three known keys default to the empty string, every other key to `false` |
| Config.Get | lib/class-config.php:25-33 | a stored non-null value is returned, else the key's default; the result is never null |
| Config.Set | lib/class-config.php:35-41 | the key now holds the value and every other stored key is unchanged |
| Config.GetAfterSet | lib/class-config.php:25-41 | reading a key back after setting it gives the value, or the default for a null; other keys read as before |
| Config.SetMultiple | lib/class-config.php:54-62 | every given key holds its given value, and stored keys not given are unchanged |
| Config.GetList | lib/class-config.php:64-68 | every default key and every stored key is listed; stored entries, nulls included, override defaults |
| Config.GetAgreesWithList | lib/class-config.php:25-33 | `get` and `getList` agree except on a stored null (default vs null) and on keys outside both (`false` vs absent) |
| Config.GetMultipleAsWritten | lib/class-config.php:43-52 | only the last key's value (or default) is returned; no keys give an empty array |
| Config.GetMultiple | lib/class-config.php:43-52 | the corrected result maps every requested key, and only those, to what `get` returns for it |
| Config.GetMultipleLosesEarlierKeys | lib/class-config.php:43-52 | with `hook_prefix` stored, asking for `hook_prefix` and `version` returns only the empty version as written, while the corrected result keeps both |

## Left out

- Logging through `WP_CLI::log`/`warning` and its message text: logging only. This includes the warnings for refused `@since` and package terms.
- `sleep(3)`: only the number of pauses is modelled.
- Meta payloads (arguments, flags, extends, implements, properties, tags, hook type): only which (post, key) rows are written is kept.
- The internals of `sanitize_title`, `sanitize_post`, `wp_slash` and the SQL query: the slug is an uninterpreted function, the column comparison is record equality.
- Post type and taxonomy names, and overriding them through the constructor: post types and taxonomies are the enumerations `PostType` and `Taxonomy`.
- The statistics `import_item` logs for new and updated posts: logging only.
- `lib/class-command.php` (CLI dispatch, file I/O, JSON, the current-user check) is not part of this model.
- Config: the singleton, the persistence of `get_option`/`update_option` and the return value of `update_option` are not modelled. The option is passed in and returned.
- Config: PHP turns numeric string keys into integers; the model keeps string keys.
- `@since` lookup: `term_exists` is called without a parent; the model looks the version up under parent 0.
- File term: the source attaches the file term by its name (`$term['name']`), which `wp_set_object_terms` resolves again slug-first through `term_exists`; the model attaches it by id. This also leaves out the case where the name, which is the path itself (say `a/b.php`, whose term has the slug `a_b.php`), is sanitised to another slug (`ab.php`) and resolves to, or creates, a different term; `ImportItemAttaches`' file-term clause relies on this. The `get_term_by` after a successful insert is assumed to find the new term.
- ImportFunction: PHP discards the id from `import_item`; the model returns it to state where the hooks go.
- Orchestrator.ImportHook: states the hook's post and columns, not which term slots it carries; `ImportItemAttaches` states that for every item.
- ImportHooks: a hook overwritten by a later written hook with the same key is not described; the later one is.
- ImportMethods: does not restate the hooks of each method once later methods have run; `ImportMethod` states them for one method. Its errors are bounded only by "no refusal, no error"; which method or hook each one names is not stated.
- ImportClass: does not restate its methods' hooks; `ImportMethod` states them. Errors of a stored class are bounded only by "no refusal, no error".
- ImportEntries: an entry overwritten by a later written entry with the same key is not described; nested methods and hooks are left to the handlers. Errors are bounded only by "no refusal, no error".
- ImportContents: nested methods and hooks are not restated once later entries have run, and method and hook posts are not framed at file level (the hooks loop writes hook posts, each function or class writes method and hook posts under ids the model does not name here). Errors are bounded only by "no refusal, no error".
- Upsert: the stored `post_name` is assumed to be the requested slug (WordPress may make it unique); `ImportItemIdempotent` relies on this.
- FileImport.ImportFile: does not restate nested methods and hooks, or the per-item term attachment of entries, which `ImportItemAttaches` covers one item at a time; it also does not state idempotence of a whole file. Errors after the file term are bounded only by "no refusal, no error".

## Findings

| source | as written | input that shows it | evidently intended | confidence | as-written member | corrected member |
|---|---|---|---|---|---|---|
| lib/class-config.php:46-51 | each loop pass assigns `$values = …`, overwriting the array with a single value, so only the last key's value is returned | stored `hook_prefix` = `"wp_"`, keys `hook_prefix`, `version`: returns `""` | `$values[ $key ] = …`, a map from each key to its value | high, not executed | Config.GetMultipleAsWritten | Config.GetMultiple |

=== FILE: classify.dfy ===
/**
 * Term assignment after a successful post write: the `@since` version term,
 * and the `@package` / `@subpackage` terms with their file-level fallback and
 * the two-level parent rule.
 */
module Classify {
  import opened Wrappers
  import opened Entities
  import opened Store

  /** The term found for `key`, if the store has one. */
  function Lookup(st: Store, key: TermKey): Option<TermId> {
    if key in st.terms then Some(st.terms[key]) else None
  }

  /** The `@since` term: flat taxonomy, looked up without a parent. */
  function SinceKey(env: Env, version: string): TermKey {
    TermKey(SinceVersion, env.slug(version), 0)
  }

  /** The main package term always sits at the top level. */
  function MainKey(env: Env, termName: string): TermKey {
    TermKey(Package, env.slug(termName), 0)
  }

  /** The subpackage sits under the main package term when one was resolved, else at the top level. */
  function SubKey(env: Env, termName: string, main: Option<TermId>): TermKey {
    TermKey(Package, env.slug(termName), if main.Some? then main.value else 0)
  }

  datatype Attach = Attach(store: Store, term: Option<TermId>)

  /**
   * Find or create the term for `key` and, when that works, make it the
   * post's only term in the key's taxonomy; a refused term leaves
   * everything as it was.
   */
  function AttachTerm(env: Env, st: Store, post: PostId, key: TermKey): (r: Attach)
    ensures r.term == Lookup(r.store, key)
    ensures r.term.None? ==> r.store == st && key !in st.terms && env.rejectsTerm(key).Some?
    ensures key in st.terms ==> r.term == Some(st.terms[key])
    ensures r.term.Some? ==> r.store.objectTerms == st.objectTerms[ObjectKey(post, key.taxonomy) := {r.term.value}]
    ensures Settled(env, r.store, key)
    ensures Settled(env, st, key) ==> r.store.terms == st.terms && r.store.nextTerm == st.nextTerm
    ensures r.store.terms.Keys <= st.terms.Keys + {key}
    ensures r.store == st.(terms := r.store.terms, nextTerm := r.store.nextTerm, objectTerms := r.store.objectTerms)
    ensures TermsGrow(env, st, r.store)
    ensures ValidTerms(st) ==> ValidTerms(r.store)
  {
    var t := ResolveTerm(env, st, key);
    match t.term
    case Success(id) => Attach(SetObjectTerms(t.store, post, key.taxonomy, {id}), Some(id))
    case Failure(_) => Attach(t.store, None)
  }

  /** The `@since` step: the first `@since` tag's term, when it resolves, becomes the post's version term. */
  function AssignSince(env: Env, st: Store, post: PostId, since: Option<string>): (r: Attach)
    ensures r.term == (if since.Some? then Lookup(r.store, SinceKey(env, since.value)) else None)
    ensures r.store.objectTerms ==
      if r.term.Some? then st.objectTerms[ObjectKey(post, SinceVersion) := {r.term.value}] else st.objectTerms
    ensures since.Some? ==> Settled(env, r.store, SinceKey(env, since.value))
    ensures (since.Some? ==> Settled(env, st, SinceKey(env, since.value))) ==>
      r.store.terms == st.terms && r.store.nextTerm == st.nextTerm
    ensures r.store.terms.Keys <= st.terms.Keys + (if since.Some? then {SinceKey(env, since.value)} else {})
    ensures r.store == st.(terms := r.store.terms, nextTerm := r.store.nextTerm, objectTerms := r.store.objectTerms)
    ensures TermsGrow(env, st, r.store)
    ensures ValidTerms(st) ==> ValidTerms(r.store)
  {
    match since
    case None => Attach(st, None)
    case Some(v) => AttachTerm(env, st, post, SinceKey(env, v))
  }

  /**
   * The label used for `@package` (or `@subpackage`): the item's own first
   * tag of that name, or else the file docblock's first one.
   */
  function PackageLabel(itemTags: seq<Tag>, fileTags: seq<Tag>, name: string): (r: Option<string>)
    ensures r.Some? <==> HasTag(itemTags, name) || HasTag(fileTags, name)
    ensures HasTag(itemTags, name) ==> r == FirstTag(itemTags, name)
    ensures !HasTag(itemTags, name) ==> r == FirstTag(fileTags, name)
  {
    match FirstTag(itemTags, name)
    case Some(found) => Some(found)
    case None => FirstTag(fileTags, name)
  }

  datatype PackageOutcome = PackageOutcome(store: Store, main: Option<TermId>, sub: Option<TermId>)

  /**
   * The package loop of `import_item`: the main package is resolved first
   * at the top level; the subpackage is resolved under the main term only
   * when the main term was resolved in this same call, otherwise at the top
   * level.  Each resolved term replaces the post's package terms, so when
   * both resolve the post keeps only the subpackage term.
   */
  function AssignPackages(env: Env, st: Store, post: PostId, main: Option<string>, sub: Option<string>): (r: PackageOutcome)
    ensures r.main == (if main.Some? then Lookup(r.store, MainKey(env, main.value)) else None)
    ensures r.sub == (if sub.Some? then Lookup(r.store, SubKey(env, sub.value, r.main)) else None)
    ensures main.Some? && MainKey(env, main.value) in st.terms ==> r.main == Some(st.terms[MainKey(env, main.value)])
    // a refusal on one of the two does not stop the other
    ensures main.Some? && env.rejectsTerm(MainKey(env, main.value)).None? ==> r.main.Some?
    ensures sub.Some? && env.rejectsTerm(SubKey(env, sub.value, r.main)).None? ==> r.sub.Some?
    ensures main.Some? ==> Settled(env, r.store, MainKey(env, main.value))
    ensures sub.Some? ==> Settled(env, r.store, SubKey(env, sub.value, r.main))
    ensures r.store.objectTerms ==
      if r.sub.Some? then st.objectTerms[ObjectKey(post, Package) := {r.sub.value}]
      else if r.main.Some? then st.objectTerms[ObjectKey(post, Package) := {r.main.value}]
      else st.objectTerms
    ensures (main.Some? ==> Settled(env, st, MainKey(env, main.value)))
         && (sub.Some? ==> Settled(env, st, SubKey(env, sub.value, r.main)))
        ==> r.store.terms == st.terms && r.store.nextTerm == st.nextTerm
    ensures r.store == st.(terms := r.store.terms, nextTerm := r.store.nextTerm, objectTerms := r.store.objectTerms)
    ensures TermsGrow(env, st, r.store)
    ensures ValidTerms(st) ==> ValidTerms(r.store)
  {
    var m := if main.None? then Attach(st, None) else AttachTerm(env, st, post, MainKey(env, main.value));
    var s := if sub.None? then Attach(m.store, None) else AttachTerm(env, m.store, post, SubKey(env, sub.value, m.term));
    assert main.Some? ==> Lookup(s.store, MainKey(env, main.value)) == m.term by {
      if main.Some? && sub.Some? && m.term.None? {
        var mk := MainKey(env, main.value);
        var sk := SubKey(env, sub.value, m.term);
        if sk == mk {
          assert s.term.None?;
        }
      }
    }
    PackageOutcome(s.store, m.term, s.term)
  }
}

=== FILE: config.dfy ===
/**
 * The plugin configuration: one stored option (a key to value map) read
 * through a fixed set of defaults.  A key whose stored value is missing or
 * null reads as its default, and a key without a default reads as `false`.
 */
module Config {

  /** The PHP values an option can hold; arrays are keyed maps. */
  datatype Value = Null | Bool(b: bool) | Int(i: int) | Str(s: string) | Arr(items: map<string, Value>)

  /** The stored option (`get_option` falls back to an empty array). */
  type Stored = map<string, Value>

  /** The three configuration keys and their empty-string defaults. */
  const Defaults: map<string, Value> := map["hook_prefix" := Str(""), "namespace" := Str(""), "version" := Str("")]

  /** `isset`: present and not null. */
  predicate IsSet(option: Stored, key: string) {
    key in option && option[key] != Null
  }

  function GetDefault(key: string): (v: Value)
    ensures key in Defaults ==> v == Str("")
    ensures key !in Defaults ==> v == Bool(false)
  {
    if key in Defaults then Defaults[key] else Bool(false)
  }

  function Get(option: Stored, key: string): (v: Value)
    ensures IsSet(option, key) ==> v == option[key]
    ensures !IsSet(option, key) ==> v == GetDefault(key)
    ensures v != Null
  {
    if IsSet(option, key) then option[key] else GetDefault(key)
  }

  function Set(option: Stored, key: string, value: Value): (r: Stored)
    ensures r.Keys == option.Keys + {key}
    ensures r[key] == value
    ensures forall k :: k in option && k != key ==> r[k] == option[k]
  {
    option[key := value]
  }

  /** Reading a key back after setting it: the value, or the default when the value is null. */
  lemma GetAfterSet(option: Stored, key: string, value: Value, other: string)
    ensures Get(Set(option, key, value), key) == if value == Null then GetDefault(key) else value
    ensures other != key ==> Get(Set(option, key, value), other) == Get(option, other)
  {
  }

  /** The keys of an ordered list of pairs. */
  function KeysOf(values: seq<(string, Value)>): set<string> {
    set i | 0 <= i < |values| :: values[i].0
  }

  /** A PHP array never holds the same key twice. */
  predicate DistinctKeys(values: seq<(string, Value)>) {
    forall i, j :: 0 <= i < j < |values| ==> values[i].0 != values[j].0
  }

  /** Every pair is written over the stored option, one key at a time. */
  method SetMultiple(option: Stored, values: seq<(string, Value)>) returns (r: Stored)
    requires DistinctKeys(values)
    ensures r.Keys == option.Keys + KeysOf(values)
    ensures forall i :: 0 <= i < |values| ==> r[values[i].0] == values[i].1
    ensures forall k :: k in option && k !in KeysOf(values) ==> r[k] == option[k]
  {
    r := option;
    var n := 0;
    while n < |values|
      invariant 0 <= n <= |values|
      invariant r.Keys == option.Keys + KeysOf(values[..n])
      invariant forall i :: 0 <= i < n ==> values[i].0 in r && r[values[i].0] == values[i].1
      invariant forall k :: k in option && k !in KeysOf(values[..n]) ==> r[k] == option[k]
    {
      assert KeysOf(values[..n + 1]) == KeysOf(values[..n]) + {values[n].0} by {
        assert forall i :: 0 <= i < n ==> values[..n + 1][i] == values[..n][i];
        assert values[..n + 1][n] == values[n];
      }
      r := r[values[n].0 := values[n].1];
      n := n + 1;
    }
    assert values[..n] == values;
  }

  /** `wp_parse_args`: every default key, with stored entries (null ones included) winning. */
  function GetList(option: Stored): (r: map<string, Value>)
    ensures r.Keys == Defaults.Keys + option.Keys
    ensures forall k :: k in option ==> r[k] == option[k]
    ensures forall k :: k in Defaults && k !in option ==> r[k] == Defaults[k]
  {
    Defaults + option
  }

  /**
   * `get` and `getList` agree on every key except a stored null, which
   * `get` reads as the default and `getList` reports as null.
   */
  lemma GetAgreesWithList(option: Stored, key: string)
    ensures key in GetList(option) && GetList(option)[key] != Null ==> Get(option, key) == GetList(option)[key]
    ensures key in option && option[key] == Null ==> GetList(option)[key] == Null && Get(option, key) == GetDefault(key)
    ensures key !in GetList(option) ==> Get(option, key) == Bool(false)
  {
  }

  /**
   * `getMultiple` as written: each pass of the loop overwrites the result
   * with the current key's value, so only the last key's value survives;
   * with no keys the initial empty array is returned.
   */
  function GetMultipleAsWritten(option: Stored, keys: seq<string>, values: Value := Arr(map[])): (r: Value)
    ensures |keys| == 0 ==> r == values
    ensures |keys| > 0 ==> r == Get(option, keys[|keys| - 1])
    decreases |keys|
  {
    if |keys| == 0 then values
    else GetMultipleAsWritten(option, keys[1..], Get(option, keys[0]))
  }

  /** `getMultiple` as evidently intended: each requested key mapped to what `get` returns for it. */
  function GetMultiple(option: Stored, keys: seq<string>): (r: map<string, Value>)
    ensures r.Keys == set i | 0 <= i < |keys| :: keys[i]
    ensures forall k :: k in r ==> r[k] == Get(option, k)
    decreases |keys|
  {
    if |keys| == 0 then map[]
    else
      var front := keys[..|keys| - 1];
      assert forall i :: 0 <= i < |keys| - 1 ==> front[i] == keys[i];
      GetMultiple(option, front)[keys[|keys| - 1] := Get(option, keys[|keys| - 1])]
  }

  /**
   * With `hook_prefix` configured, asking for `hook_prefix` and `version`
   * together returns only the empty version: the configured prefix is
   * lost, where the keyed result keeps both.
   */
  lemma GetMultipleLosesEarlierKeys()
    ensures var option := map["hook_prefix" := Str("wp_")];
      var keys := ["hook_prefix", "version"];
      && GetMultipleAsWritten(option, keys) == Str("")
      && GetMultiple(option, keys) == map["hook_prefix" := Str("wp_"), "version" := Str("")]
  {
    var option := map["hook_prefix" := Str("wp_")];
    var keys := ["hook_prefix", "version"];
    assert Get(option, "version") == Str("");
    assert Get(option, "hook_prefix") == Str("wp_");
    var r := GetMultiple(option, keys);
    assert r.Keys == {"hook_prefix", "version"} by {
      assert keys[0] == "hook_prefix" && keys[1] == "version";
    }
  }
}

=== FILE: entities.dfy ===
/**
 * The parsed documentation tree handed to the importer: files, functions,
 * classes, methods and hooks, each carrying a docblock of ordered tags.
 * Meta payloads (arguments, line numbers, flags, extends, implements,
 * properties) are not part of the model, so they are not fields here.
 */
module Entities {
  import opened Wrappers

  /** One `@name content` annotation. */
  datatype Tag = Tag(name: string, content: string)

  /** A documentation comment: short description, long description, tags. */
  datatype Docblock = Docblock(description: string, longDescription: string, tags: seq<Tag>)

  /** What every imported entity has in common: its name and its docblock. */
  datatype Item = Item(name: string, doc: Docblock)

  /** A hook (action or filter); `hookType` is only ever written as meta. */
  datatype Hook = Hook(item: Item, hookType: string)

  datatype Method = Method(item: Item, hooks: seq<Hook>)

  datatype Function = Function(item: Item, hooks: seq<Hook>)

  datatype Class = Class(item: Item, methods: seq<Method>)

  /** One parsed source file: its path, file-level docblock and children. */
  datatype ParsedFile = ParsedFile(
    path: string,
    doc: Docblock,
    functions: seq<Function>,
    classes: seq<Class>,
    hooks: seq<Hook>)

  /** True iff filtering the tag list by `name` leaves something (`wp_list_filter` non-empty). */
  predicate HasTag(tags: seq<Tag>, name: string) {
    exists i :: 0 <= i < |tags| && tags[i].name == name
  }

  /**
   * The content of the first tag called `name`: the filtered list's
   * `array_shift`, then its `content`.  First match wins.
   */
  function FirstTag(tags: seq<Tag>, name: string): (r: Option<string>)
    ensures r.Some? <==> HasTag(tags, name)
    ensures r.Some? ==>
      exists i :: 0 <= i < |tags| && tags[i].name == name && tags[i].content == r.value
        && forall j :: 0 <= j < i ==> tags[j].name != name
  {
    if |tags| == 0 then None
    else if tags[0].name == name then Some(tags[0].content)
    else
      var r := FirstTag(tags[1..], name);
      assert forall i :: 0 <= i < |tags| - 1 ==> tags[1..][i] == tags[i + 1];
      assert HasTag(tags[1..], name) ==> HasTag(tags, name);
      assert HasTag(tags, name) ==> HasTag(tags[1..], name) by {
        if HasTag(tags, name) {
          var i :| 0 <= i < |tags| && tags[i].name == name;
          assert i > 0 && tags[1..][i - 1].name == name;
        }
      }
      assert r.Some? ==>
        exists i :: 0 <= i < |tags| && tags[i].name == name && tags[i].content == r.value
          && forall j :: 0 <= j < i ==> tags[j].name != name by {
        if r.Some? {
          var i :| 0 <= i < |tags[1..]| && tags[1..][i].name == name && tags[1..][i].content == r.value
            && forall j :: 0 <= j < i ==> tags[1..][j].name != name;
          assert tags[i + 1].name == name && tags[i + 1].content == r.value;
          assert forall j :: 0 <= j < i + 1 ==> tags[j].name != name by {
            forall j | 0 <= j < i + 1 ensures tags[j].name != name {
              if j > 0 { assert tags[1..][j - 1] == tags[j]; }
            }
          }
        }
      }
      r
  }

  /** `$haystack` begins with `prefix` (`0 === strpos($haystack, $prefix)`). */
  predicate StartsWith(haystack: string, prefix: string) {
    |prefix| <= |haystack| && haystack[..|prefix|] == prefix
  }

  /** `s` ends with `suffix`. */
  predicate EndsWith(s: string, suffix: string) {
    |suffix| <= |s| && s[|s| - |suffix|..] == suffix
  }

  /** `str_replace('/', '_', $path)`, written recursively. */
  function ReplaceSlashes(path: string): (r: string)
    ensures |r| == |path|
    ensures forall i :: 0 <= i < |path| ==> r[i] == (if path[i] == '/' then '_' else path[i])
  {
    if |path| == 0 then ""
    else [if path[0] == '/' then '_' else path[0]] + ReplaceSlashes(path[1..])
  }
}

=== FILE: file_import.dfy ===
/**
 * `import_file`: find or create the file's term in the source-file
 * taxonomy, then import the file's functions, classes and file-level hooks,
 * in that order, each at the top level, pausing after every tenth entry of
 * each collection unless pauses are skipped.  The pause itself is not
 * modelled; the number of pauses is.
 */
module FileImport {
  import opened Wrappers
  import opened Entities
  import opened Store
  import opened PostUpsert
  import opened ItemImport
  import opened Orchestrator

  /** One top-level entry of a file, whatever collection it came from. */
  datatype Entry = FunctionEntry(f: Function) | ClassEntry(c: Class) | HookEntry(h: Hook)

  function EntryItem(e: Entry): Item {
    match e
    case FunctionEntry(f) => f.item
    case ClassEntry(c) => c.item
    case HookEntry(h) => h.item
  }

  function EntryKind(e: Entry): PostType {
    match e
    case FunctionEntry(_) => FunctionPost
    case ClassEntry(_) => ClassPost
    case HookEntry(_) => HookPost
  }

  /** Where a top-level entry's post is stored. */
  function EntryKey(env: Env, e: Entry): PostKey {
    PostKey(env.slug(EntryItem(e).name), EntryKind(e), 0)
  }

  /** The message recorded when a top-level entry's post cannot be written. */
  function EntryError(e: Entry): string {
    UpsertError(EntryKind(e), EntryItem(e).name, 0)
  }

  /** The entry passes its handler's filters and reaches the post write. */
  predicate EntryImported(e: Entry, importInternal: bool) {
    match e
    case HookEntry(h) => HookImported(h, importInternal)
    case _ => !Hidden(EntryItem(e).doc.tags, importInternal)
  }

  /** Where an entry's post is written, or `None` when it never reaches the write. */
  function EntryWrite(env: Env, e: Entry, importInternal: bool): Option<PostKey> {
    if EntryImported(e, importInternal) then Some(EntryKey(env, e)) else None
  }

  /** Where each entry of a collection is written, in order. */
  function EntryKeys(env: Env, es: seq<Entry>, importInternal: bool): (r: seq<Option<PostKey>>)
    ensures |r| == |es| && forall i :: 0 <= i < |es| ==> r[i] == EntryWrite(env, es[i], importInternal)
  {
    seq(|es|, i requires 0 <= i < |es| => EntryWrite(env, es[i], importInternal))
  }

  /** The entries come from one of the file's three collections. */
  predicate OneCollection(es: seq<Entry>) {
    forall i :: 0 <= i < |es| ==> EntryKind(es[i]) == EntryKind(es[0])
  }

  /**
   * Posts an entry's handler leaves alone, besides its own: a hook touches
   * no other post; a function or class touches no other function or class
   * post (its methods and hooks are posts of other types).
   */
  predicate Spared(e: Entry, k: PostKey) {
    e.HookEntry? || k.postType == ClassPost || k.postType == FunctionPost
  }

  /**
   * What one top-level entry's handler guarantees: the entry landed when it
   * reached the write, no other post it spares moved, nothing is reported
   * when WordPress refuses nothing, and the store stays valid.
   */
  ghost predicate EntryOutcome(env: Env, st: Store, e: Entry, importInternal: bool, r: ItemOutcome) {
    && (EntryImported(e, importInternal) ==> Landed(env, r.store, r.errors, EntryItem(e), 0, EntryKind(e)))
    && (forall k: PostKey :: Some(k) != EntryWrite(env, e, importInternal) && Spared(e, k) ==> Untouched(st, r.store, k))
    && (AcceptsAll(env) ==> r.errors == [])
    && Keeps(st, r.store)
    && (Valid(st) ==> Valid(r.store))
  }

  /** `import_function` at the top level meets the entry guarantee. */
  lemma FunctionEntryOutcome(env: Env, st: Store, ctx: FileContext, f: Function, importInternal: bool)
    ensures EntryOutcome(env, st, FunctionEntry(f), importInternal, ImportFunction(env, st, ctx, f, 0, importInternal))
  {
    var e := FunctionEntry(f);
    var r := ImportFunction(env, st, ctx, f, 0, importInternal);
    forall k: PostKey | Some(k) != EntryWrite(env, e, importInternal) && Spared(e, k)
      ensures Untouched(st, r.store, k)
    {
      assert r.id.None? || k != EntryKey(env, e);
    }
  }

  /** `import_class` meets the entry guarantee. */
  lemma ClassEntryOutcome(env: Env, st: Store, ctx: FileContext, c: Class, importInternal: bool)
    ensures EntryOutcome(env, st, ClassEntry(c), importInternal, ImportClass(env, st, ctx, c, importInternal))
  {
    var e := ClassEntry(c);
    var r := ImportClass(env, st, ctx, c, importInternal);
    forall k: PostKey | Some(k) != EntryWrite(env, e, importInternal) && Spared(e, k)
      ensures Untouched(st, r.store, k)
    {
      if r.id.Some? {
        assert !Hidden(c.item.doc.tags, importInternal);
        assert k != PostKey(env.slug(c.item.name), ClassPost, 0) && k.postType != HookPost && k.postType != MethodPost;
      }
    }
  }

  /** `import_hook` at the top level meets the entry guarantee. */
  lemma HookEntryOutcome(env: Env, st: Store, ctx: FileContext, h: Hook, importInternal: bool)
    ensures EntryOutcome(env, st, HookEntry(h), importInternal, ImportHook(env, st, ctx, h, 0, importInternal))
  {
    var e := HookEntry(h);
    var r := ImportHook(env, st, ctx, h, 0, importInternal);
    forall k: PostKey | Some(k) != EntryWrite(env, e, importInternal)
      ensures Untouched(st, r.store, k)
    {
      if HookImported(h, importInternal) {
        assert k != HookKey(env, h, 0);
      }
    }
  }

  /** The handler `import_file` calls for each kind of entry, with parent 0. */
  function ImportEntry(env: Env, st: Store, ctx: FileContext, e: Entry, importInternal: bool): (r: ItemOutcome)
    ensures EntryImported(e, importInternal) ==> Landed(env, r.store, r.errors, EntryItem(e), 0, EntryKind(e))
    ensures forall k: PostKey :: Some(k) != EntryWrite(env, e, importInternal) && Spared(e, k) ==> Untouched(st, r.store, k)
    ensures AcceptsAll(env) ==> r.errors == []
    ensures Keeps(st, r.store)
    ensures Valid(st) ==> Valid(r.store)
  {
    match e
    case FunctionEntry(f) =>
      FunctionEntryOutcome(env, st, ctx, f, importInternal);
      ImportFunction(env, st, ctx, f, 0, importInternal)
    case ClassEntry(c) =>
      ClassEntryOutcome(env, st, ctx, c, importInternal);
      ImportClass(env, st, ctx, c, importInternal)
    case HookEntry(h) =>
      HookEntryOutcome(env, st, ctx, h, importInternal);
      ImportHook(env, st, ctx, h, 0, importInternal)
  }

  /** The store, the errors appended, and how many pauses were taken. */
  datatype Progress = Progress(store: Store, errors: seq<string>, pauses: nat)

  /** Pausing after the `count + 1`-th entry adds one to the number of tens passed. */
  lemma NextTenth(count: nat)
    ensures (count + 1) / 10 - count / 10 == (if (count + 1) % 10 == 0 then 1 else 0)
  {
  }

  /**
   * Every entry of `es` that is the last write under its key holds its
   * columns or had its refusal recorded.
   */
  predicate AllLanded(env: Env, st: Store, errors: seq<string>, es: seq<Entry>, importInternal: bool) {
    forall i :: 0 <= i < |es| && EntryImported(es[i], importInternal) && LastUnder(EntryKeys(env, es, importInternal), i) ==>
      Landed(env, st, errors, EntryItem(es[i]), 0, EntryKind(es[i]))
  }

  /**
   * The loop over `es` leaves alone, from `a` to `b`, every post none of its
   * entries writes and its first entry spares.
   */
  ghost predicate LoopSpares(env: Env, es: seq<Entry>, importInternal: bool, a: Store, b: Store) {
    forall k: PostKey :: Some(k) !in EntryKeys(env, es, importInternal) && (|es| == 0 || Spared(es[0], k)) ==> Untouched(a, b, k)
  }

  /**
   * One step of a collection loop: the first entry's outcome, followed by
   * the rest of the loop, gives the outcome of the whole loop.
   */
  lemma EntriesStep(env: Env, es: seq<Entry>, importInternal: bool, s0: Store, a: Store, ea: seq<string>, b: Store, eb: seq<string>)
    requires |es| > 0 && OneCollection(es)
    requires EntryImported(es[0], importInternal) ==> Landed(env, a, ea, EntryItem(es[0]), 0, EntryKind(es[0]))
    requires forall k: PostKey :: Some(k) != EntryWrite(env, es[0], importInternal) && Spared(es[0], k) ==> Untouched(s0, a, k)
    requires Valid(s0) ==> Valid(a)
    requires AllLanded(env, b, eb, es[1..], importInternal)
    requires LoopSpares(env, es[1..], importInternal, a, b)
    ensures AllLanded(env, b, ea + eb, es, importInternal)
    ensures LoopSpares(env, es, importInternal, s0, b)
  {
    var keys := EntryKeys(env, es, importInternal);
    assert EntryKeys(env, es[1..], importInternal) == keys[1..];
    forall i | 0 <= i < |es| && EntryImported(es[i], importInternal) && LastUnder(keys, i)
      ensures Landed(env, b, ea + eb, EntryItem(es[i]), 0, EntryKind(es[i]))
    {
      if i == 0 {
        LastUnderHead(keys);
        assert |es| == 1 || Spared(es[1..][0], keys[0].value);
        LandedStays(env, a, ea, b, ea + eb, EntryItem(es[0]), 0, EntryKind(es[0]));
      } else {
        LastUnderTail(keys, i);
        assert es[i] == es[1..][i - 1];
        LandedStays(env, b, eb, b, ea + eb, EntryItem(es[i]), 0, EntryKind(es[i]));
      }
    }
    forall k: PostKey | Some(k) !in keys && Spared(es[0], k)
      ensures Untouched(s0, b, k)
    {
      assert keys[0] in keys;
      assert Some(k) !in keys[1..];
      assert |es| == 1 || Spared(es[1..][0], k);
      UntouchedTransitive(s0, a, b, k);
    }
  }

  /**
   * One `foreach` of `import_file`: `count` entries of this collection are
   * already done; a pause follows every entry that brings the counter to a
   * multiple of ten.
   */
  function ImportEntries(env: Env, st: Store, ctx: FileContext, es: seq<Entry>, count: nat, importInternal: bool, skipSleep: bool): (r: Progress)
    requires OneCollection(es)
    ensures r.pauses == if skipSleep then 0 else (count + |es|) / 10 - count / 10
    ensures AllLanded(env, r.store, r.errors, es, importInternal)
    ensures LoopSpares(env, es, importInternal, st, r.store)
    ensures AcceptsAll(env) ==> r.errors == []
    ensures Keeps(st, r.store)
    ensures Valid(st) ==> Valid(r.store)
    decreases |es|
  {
    if |es| == 0 then Progress(st, [], 0)
    else
      var e := ImportEntry(env, st, ctx, es[0], importInternal);
      var pause := if !skipSleep && (count + 1) % 10 == 0 then 1 else 0;
      assert OneCollection(es[1..]) by {
        assert forall i :: 1 <= i < |es| ==> es[i] == es[1..][i - 1];
      }
      var rest := ImportEntries(env, e.store, ctx, es[1..], count + 1, importInternal, skipSleep);
      NextTenth(count);
      EntriesStep(env, es, importInternal, st, e.store, e.errors, rest.store, rest.errors);
      KeepsTransitive(st, e.store, rest.store);
      Progress(rest.store, e.errors + rest.errors, pause + rest.pauses)
  }

  function FunctionEntries(fs: seq<Function>): (r: seq<Entry>)
    ensures |r| == |fs| && forall i :: 0 <= i < |fs| ==> r[i] == FunctionEntry(fs[i])
    ensures OneCollection(r)
  {
    seq(|fs|, i requires 0 <= i < |fs| => FunctionEntry(fs[i]))
  }

  function ClassEntries(cs: seq<Class>): (r: seq<Entry>)
    ensures |r| == |cs| && forall i :: 0 <= i < |cs| ==> r[i] == ClassEntry(cs[i])
    ensures OneCollection(r)
  {
    seq(|cs|, i requires 0 <= i < |cs| => ClassEntry(cs[i]))
  }

  function HookEntries(hs: seq<Hook>): (r: seq<Entry>)
    ensures |r| == |hs| && forall i :: 0 <= i < |hs| ==> r[i] == HookEntry(hs[i])
    ensures OneCollection(r)
  {
    seq(|hs|, i requires 0 <= i < |hs| => HookEntry(hs[i]))
  }

  /** Entries that landed stay landed while their posts are left alone and errors are only appended. */
  lemma StillLanded(env: Env, es: seq<Entry>, importInternal: bool, a: Store, ea: seq<string>, b: Store, eb: seq<string>)
    requires AllLanded(env, a, ea, es, importInternal)
    requires forall i :: 0 <= i < |es| ==> Unmoved(a, b, EntryKey(env, es[i]))
    requires forall m :: m in ea ==> m in eb
    ensures AllLanded(env, b, eb, es, importInternal)
  {
  }

  /** The file's term: its slug is the sanitised path with `/` turned into `_`. */
  function FileTermKey(env: Env, path: string): TermKey {
    TermKey(SourceFile, env.slug(ReplaceSlashes(path)), 0)
  }

  /** The message recorded when the file's term cannot be created. */
  function FileTermError(slug: string, path: string, msg: string): string {
    "Problem creating file tax item \"" + slug + "\" for " + path + ": " + msg
  }

  /**
   * A later collection of another kind leaves an earlier collection's posts
   * alone: functions and classes never share a key, and hooks touch only
   * hook posts.
   */
  lemma LaterCollection(env: Env, es: seq<Entry>, later: seq<Entry>, importInternal: bool, a: Store, b: Store)
    requires OneCollection(es) && OneCollection(later)
    requires |es| > 0 && |later| > 0 ==> EntryKind(es[0]) != EntryKind(later[0]) && !es[0].HookEntry?
    requires LoopSpares(env, later, importInternal, a, b)
    ensures forall i :: 0 <= i < |es| ==> Unmoved(a, b, EntryKey(env, es[i]))
  {
    forall i | 0 <= i < |es|
      ensures Unmoved(a, b, EntryKey(env, es[i]))
    {
      assert Untouched(a, b, EntryKey(env, es[i]));
    }
  }

  /** `fs`, `cs` and `hs` are the three loops of `import_file`, run one after the other from `st`. */
  predicate ContentsRun(env: Env, st: Store, ctx: FileContext, file: ParsedFile, importInternal: bool, skipSleep: bool, fs: Progress, cs: Progress, hs: Progress) {
    && fs == ImportEntries(env, st, ctx, FunctionEntries(file.functions), 0, importInternal, skipSleep)
    && cs == ImportEntries(env, fs.store, ctx, ClassEntries(file.classes), 0, importInternal, skipSleep)
    && hs == ImportEntries(env, cs.store, ctx, HookEntries(file.hooks), 0, importInternal, skipSleep)
  }

  /**
   * The three loops together: each collection's landed entries stay landed
   * through the loops that follow it.
   */
  lemma ContentsLanded(env: Env, st: Store, ctx: FileContext, file: ParsedFile, importInternal: bool, skipSleep: bool, fs: Progress, cs: Progress, hs: Progress)
    requires ContentsRun(env, st, ctx, file, importInternal, skipSleep, fs, cs, hs)
    ensures AllLanded(env, hs.store, fs.errors + cs.errors + hs.errors, FunctionEntries(file.functions), importInternal)
    ensures AllLanded(env, hs.store, fs.errors + cs.errors + hs.errors, ClassEntries(file.classes), importInternal)
    ensures AllLanded(env, hs.store, fs.errors + cs.errors + hs.errors, HookEntries(file.hooks), importInternal)
  {
    var fe, ce, he := FunctionEntries(file.functions), ClassEntries(file.classes), HookEntries(file.hooks);
    var errors := fs.errors + cs.errors + hs.errors;
    LaterCollection(env, fe, ce, importInternal, fs.store, cs.store);
    StillLanded(env, fe, importInternal, fs.store, fs.errors, cs.store, fs.errors + cs.errors);
    LaterCollection(env, fe, he, importInternal, cs.store, hs.store);
    StillLanded(env, fe, importInternal, cs.store, fs.errors + cs.errors, hs.store, errors);
    LaterCollection(env, ce, he, importInternal, cs.store, hs.store);
    StillLanded(env, ce, importInternal, cs.store, cs.errors, hs.store, errors);
    StillLanded(env, he, importInternal, hs.store, hs.errors, hs.store, errors);
  }

  /**
   * A function or class post that no function or class entry of the file
   * writes: the file's three loops leave it alone.
   */
  predicate ContentsSpare(env: Env, file: ParsedFile, importInternal: bool, k: PostKey) {
    && (k.postType == FunctionPost || k.postType == ClassPost)
    && Some(k) !in EntryKeys(env, FunctionEntries(file.functions), importInternal)
    && Some(k) !in EntryKeys(env, ClassEntries(file.classes), importInternal)
  }

  /** The three loops' frames compose: hooks write only hook posts. */
  lemma ContentsFrame(env: Env, file: ParsedFile, importInternal: bool, s0: Store, s1: Store, s2: Store, s3: Store)
    requires Valid(s0) ==> Valid(s1)
    requires Valid(s1) ==> Valid(s2)
    requires LoopSpares(env, FunctionEntries(file.functions), importInternal, s0, s1)
    requires LoopSpares(env, ClassEntries(file.classes), importInternal, s1, s2)
    requires LoopSpares(env, HookEntries(file.hooks), importInternal, s2, s3)
    ensures forall k: PostKey :: ContentsSpare(env, file, importInternal, k) ==> Untouched(s0, s3, k)
  {
    var fe, ce, he := FunctionEntries(file.functions), ClassEntries(file.classes), HookEntries(file.hooks);
    forall k: PostKey | ContentsSpare(env, file, importInternal, k)
      ensures Untouched(s0, s3, k)
    {
      assert |fe| == 0 || Spared(fe[0], k);
      assert |ce| == 0 || Spared(ce[0], k);
      assert Some(k) !in EntryKeys(env, he, importInternal) by {
        forall i | 0 <= i < |he|
          ensures EntryKeys(env, he, importInternal)[i] != Some(k)
        {
          assert he[i].HookEntry?;
        }
      }
      UntouchedTransitive(s0, s1, s2, k);
      UntouchedTransitive(s0, s2, s3, k);
    }
  }

  /** The frame of the three loops as `import_file` runs them. */
  lemma ContentsRunFrame(env: Env, st: Store, ctx: FileContext, file: ParsedFile, importInternal: bool, skipSleep: bool, fs: Progress, cs: Progress, hs: Progress)
    requires ContentsRun(env, st, ctx, file, importInternal, skipSleep, fs, cs, hs)
    ensures forall k: PostKey :: ContentsSpare(env, file, importInternal, k) ==> Untouched(st, hs.store, k)
  {
    ContentsFrame(env, file, importInternal, st, fs.store, cs.store, hs.store);
  }

  /** The three `foreach` loops of `import_file`, each with its own counter. */
  function ImportContents(env: Env, st: Store, ctx: FileContext, file: ParsedFile, importInternal: bool, skipSleep: bool): (r: Progress)
    ensures r.pauses == if skipSleep then 0 else |file.functions| / 10 + |file.classes| / 10 + |file.hooks| / 10
    ensures AllLanded(env, r.store, r.errors, FunctionEntries(file.functions), importInternal)
    ensures AllLanded(env, r.store, r.errors, ClassEntries(file.classes), importInternal)
    ensures AllLanded(env, r.store, r.errors, HookEntries(file.hooks), importInternal)
    ensures forall k: PostKey :: ContentsSpare(env, file, importInternal, k) ==> Untouched(st, r.store, k)
    ensures AcceptsAll(env) ==> r.errors == []
    ensures Keeps(st, r.store)
    ensures Valid(st) ==> Valid(r.store)
  {
    var fs := ImportEntries(env, st, ctx, FunctionEntries(file.functions), 0, importInternal, skipSleep);
    var cs := ImportEntries(env, fs.store, ctx, ClassEntries(file.classes), 0, importInternal, skipSleep);
    var hs := ImportEntries(env, cs.store, ctx, HookEntries(file.hooks), 0, importInternal, skipSleep);
    var errors := fs.errors + cs.errors + hs.errors;
    KeepsTransitive(fs.store, cs.store, hs.store);
    KeepsTransitive(st, fs.store, hs.store);
    ContentsLanded(env, st, ctx, file, importInternal, skipSleep, fs, cs, hs);
    ContentsRunFrame(env, st, ctx, file, importInternal, skipSleep, fs, cs, hs);
    Progress(hs.store, errors, fs.pauses + cs.pauses + hs.pauses)
  }

  /** Creating the file's term, which touches only the terms, keeps the loops' frame. */
  lemma TermStepFrame(env: Env, file: ParsedFile, importInternal: bool, a: Store, b: Store, c: Store)
    requires b == a.(terms := b.terms, nextTerm := b.nextTerm)
    requires Valid(a) ==> Valid(b)
    requires forall k: PostKey :: ContentsSpare(env, file, importInternal, k) ==> Untouched(b, c, k)
    ensures forall k: PostKey :: ContentsSpare(env, file, importInternal, k) ==> Untouched(a, c, k)
  {
    forall k: PostKey | ContentsSpare(env, file, importInternal, k)
      ensures Untouched(a, c, k)
    {
      UntouchedTransitive(a, b, c, k);
    }
  }

  /** The store, the errors appended, the pauses taken, and the file's term. */
  datatype FileOutcome = FileOutcome(store: Store, errors: seq<string>, pauses: nat, fileTerm: Option<TermId>)

  /**
   * `import_file`.  When the file's term neither exists nor can be
   * created, one error is recorded and nothing else happens; otherwise the
   * term is reused or created, and functions, classes and hooks follow.
   */
  function ImportFile(env: Env, st: Store, file: ParsedFile, skipSleep: bool, importInternal: bool): (r: FileOutcome)
    ensures var key := FileTermKey(env, file.path);
      && (r.fileTerm.None? <==> key !in st.terms && env.rejectsTerm(key).Some?)
      && (r.fileTerm.None? ==>
            r.store == st && r.pauses == 0
            && r.errors == [FileTermError(key.slug, file.path, env.rejectsTerm(key).value)])
      && (r.fileTerm.Some? ==> key in r.store.terms && r.store.terms[key] == r.fileTerm.value)
      && (r.fileTerm.Some? && key in st.terms ==> r.fileTerm.value == st.terms[key])
    ensures r.fileTerm.Some? ==>
      r.pauses == if skipSleep then 0 else |file.functions| / 10 + |file.classes| / 10 + |file.hooks| / 10
    ensures r.fileTerm.Some? ==>
      && AllLanded(env, r.store, r.errors, FunctionEntries(file.functions), importInternal)
      && AllLanded(env, r.store, r.errors, ClassEntries(file.classes), importInternal)
      && AllLanded(env, r.store, r.errors, HookEntries(file.hooks), importInternal)
    ensures r.fileTerm.Some? && AcceptsAll(env) ==> r.errors == []
    ensures forall k: PostKey :: ContentsSpare(env, file, importInternal, k) ==> Untouched(st, r.store, k)
    ensures Keeps(st, r.store)
    ensures Valid(st) ==> Valid(r.store)
  {
    var key := FileTermKey(env, file.path);
    var t := ResolveTerm(env, st, key);
    match t.term
    case Failure(msg) => FileOutcome(st, [FileTermError(key.slug, file.path, msg)], 0, None)
    case Success(id) =>
      var contents := ImportContents(env, t.store, FileContext(file.doc, id), file, importInternal, skipSleep);
      KeepsTransitive(st, t.store, contents.store);
      TermStepFrame(env, file, importInternal, st, t.store, contents.store);
      FileOutcome(contents.store, contents.errors, contents.pauses, Some(id))
  }
}

=== FILE: import_item.dfy ===
/**
 * `import_item`: the visibility filter, the upsert, error recording, and
 * the term and meta writes that follow a successful upsert.
 */
module ItemImport {
  import opened Wrappers
  import opened Entities
  import opened Store
  import opened PostUpsert
  import opened Classify

  /** What the orchestrator knows about the file being imported: its docblock and its source-file term. */
  datatype FileContext = FileContext(doc: Docblock, fileTerm: TermId)

  /** The new store, the error strings this step appended, and the post id (`false` as `None`). */
  datatype ItemOutcome = ItemOutcome(store: Store, errors: seq<string>, id: Option<PostId>)

  /** `@internal` items are skipped unless internal import is requested; `@ignore` items always are. */
  predicate Hidden(tags: seq<Tag>, importInternal: bool) {
    (!importInternal && HasTag(tags, "internal")) || HasTag(tags, "ignore")
  }

  /** Meta written by `import_item` itself: arguments for everything but classes, lines, tags. */
  function ItemMetaKeys(kind: PostType): set<MetaKey> {
    {LineNum, EndLineNum, Tags} + (if kind == ClassPost then {} else {Args})
  }

  /** Make `t`, when resolved, the post's only term in the slot `k`. */
  function Put(m: map<ObjectKey, set<TermId>>, k: ObjectKey, t: Option<TermId>): map<ObjectKey, set<TermId>> {
    if t.Some? then m[k := {t.value}] else m
  }

  /** The term names an item's tags ask for: `@since`, and `@package`/`@subpackage` with file fallback. */
  datatype Labels = Labels(since: Option<string>, main: Option<string>, sub: Option<string>)

  function ItemLabels(ctx: FileContext, item: Item): Labels {
    Labels(
      FirstTag(item.doc.tags, "since"),
      PackageLabel(item.doc.tags, ctx.doc.tags, "package"),
      PackageLabel(item.doc.tags, ctx.doc.tags, "subpackage"))
  }

  /** The terms those names resolve to in a store. */
  datatype Resolved = Resolved(since: Option<TermId>, main: Option<TermId>, sub: Option<TermId>)

  /** Look the labels up in `st`; the subpackage is looked up under the main term found there. */
  function ResolvedIn(env: Env, st: Store, l: Labels): Resolved {
    var main := if l.main.Some? then Lookup(st, MainKey(env, l.main.value)) else None;
    Resolved(
      if l.since.Some? then Lookup(st, SinceKey(env, l.since.value)) else None,
      main,
      if l.sub.Some? then Lookup(st, SubKey(env, l.sub.value, main)) else None)
  }

  /**
   * The post's attachments after `import_item`: its since term, its main
   * package term replaced by its subpackage term, its file term.  Slots whose
   * term did not resolve keep what they had.
   */
  function Attached(m: map<ObjectKey, set<TermId>>, post: PostId, t: Resolved, fileTerm: TermId): map<ObjectKey, set<TermId>> {
    Classified(m, post, t)[ObjectKey(post, SourceFile) := {fileTerm}]
  }

  /** The since and package part of `Attached`. */
  function Classified(m: map<ObjectKey, set<TermId>>, post: PostId, t: Resolved): map<ObjectKey, set<TermId>> {
    Put(Put(Put(m, ObjectKey(post, SinceVersion), t.since), ObjectKey(post, Package), t.main), ObjectKey(post, Package), t.sub)
  }

  /** Writing the same attachments twice is the same as writing them once. */
  lemma AttachedTwice(m: map<ObjectKey, set<TermId>>, post: PostId, t: Resolved, fileTerm: TermId)
    ensures Attached(Attached(m, post, t, fileTerm), post, t, fileTerm) == Attached(m, post, t, fileTerm)
  {
  }

  /** The attachments of every other post are left as they were. */
  lemma AttachedElsewhere(m: map<ObjectKey, set<TermId>>, post: PostId, t: Resolved, fileTerm: TermId)
    ensures var r := Attached(m, post, t, fileTerm);
      forall o: ObjectKey :: o.post != post ==> (o in r <==> o in m) && (o in m ==> r[o] == m[o])
  {
  }

  /** Every term lookup for these labels has an outcome that can no longer change. */
  predicate AllSettled(env: Env, st: Store, l: Labels) {
    && (l.since.Some? ==> Settled(env, st, SinceKey(env, l.since.value)))
    && (l.main.Some? ==> Settled(env, st, MainKey(env, l.main.value)))
    && (l.sub.Some? ==> Settled(env, st, SubKey(env, l.sub.value, ResolvedIn(env, st, l).main)))
  }

  /** Lookups depend on the terms only. */
  lemma SameTerms(env: Env, a: Store, b: Store, l: Labels)
    requires a.terms == b.terms
    ensures ResolvedIn(env, a, l) == ResolvedIn(env, b, l)
    ensures AllSettled(env, a, l) <==> AllSettled(env, b, l)
  {
  }

  /**
   * The `@since` and package steps of `import_item`: afterwards every
   * lookup is settled and the post's since and package slots hold exactly
   * the terms the labels resolve to; only terms and attachments change.
   */
  function ClassifyTerms(env: Env, st: Store, post: PostId, l: Labels): (r: Store)
    ensures AllSettled(env, r, l)
    ensures r.objectTerms == Classified(st.objectTerms, post, ResolvedIn(env, r, l))
    ensures AllSettled(env, st, l) ==> r.terms == st.terms && r.nextTerm == st.nextTerm
    ensures r == st.(terms := r.terms, nextTerm := r.nextTerm, objectTerms := r.objectTerms)
    ensures TermsGrow(env, st, r)
    ensures ValidTerms(st) ==> ValidTerms(r)
  {
    var since := AssignSince(env, st, post, l.since);
    var packs := AssignPackages(env, since.store, post, l.main, l.sub);
    assert ResolvedIn(env, packs.store, l).since == since.term by {
      if l.since.Some? {
        assert Settled(env, since.store, SinceKey(env, l.since.value));
      }
    }
    TermsGrowTransitive(env, st, since.store, packs.store);
    packs.store
  }

  /**
   * Everything `import_item` does after the post write succeeded: the
   * `@since` term, the package terms, the source-file term, and the meta.
   * The post ends with the since term (when it resolves), the subpackage
   * term or else the main package term, and the file's term; no other post's
   * terms change and no post changes.
   */
  function AssignTerms(env: Env, st: Store, fileTerm: TermId, post: PostId, l: Labels, kind: PostType): (r: Store)
    ensures AllSettled(env, r, l)
    ensures r.objectTerms == Attached(st.objectTerms, post, ResolvedIn(env, r, l), fileTerm)
    ensures r.meta == st.meta + MetaEntries(post, ItemMetaKeys(kind))
    ensures AllSettled(env, st, l) ==> r.terms == st.terms && r.nextTerm == st.nextTerm
    ensures r.posts == st.posts && r.nextPost == st.nextPost
    ensures ValidTerms(st) ==> ValidTerms(r)
  {
    var classified := ClassifyTerms(env, st, post, l);
    var filed := SetObjectTerms(classified, post, SourceFile, {fileTerm});
    var r := WriteMeta(filed, post, ItemMetaKeys(kind));
    SameTerms(env, classified, r, l);
    r
  }

  /** Attaching terms only ever adds terms; existing ones keep their ids. */
  lemma AssignTermsKeeps(env: Env, st: Store, fileTerm: TermId, post: PostId, l: Labels, kind: PostType)
    ensures Keeps(st, AssignTerms(env, st, fileTerm, post, l, kind))
  {
    var classified := ClassifyTerms(env, st, post, l);
    assert TermsGrow(env, st, classified);
  }

  /** The term steps touch only this post's slots and this post's meta. */
  lemma AssignTermsFrame(env: Env, st: Store, fileTerm: TermId, post: PostId, l: Labels, kind: PostType)
    ensures var r := AssignTerms(env, st, fileTerm, post, l, kind);
      && (forall o: ObjectKey :: o.post != post ==>
            && (o in r.objectTerms <==> o in st.objectTerms)
            && (o in st.objectTerms ==> r.objectTerms[o] == st.objectTerms[o]))
      && st.meta <= r.meta
      && (forall p, k :: (p, k) in r.meta && (p, k) !in st.meta ==> p == post)
  {
    var r := AssignTerms(env, st, fileTerm, post, l, kind);
    AttachedElsewhere(st.objectTerms, post, ResolvedIn(env, r, l), fileTerm);
    assert r.meta == st.meta + MetaEntries(post, ItemMetaKeys(kind));
  }

  /**
   * `import_item`: skip hidden items without touching the store; otherwise
   * upsert the post and, when WordPress refuses the write, record exactly
   * one error naming the kind and the item and write nothing else.
   */
  function ImportItem(env: Env, st: Store, ctx: FileContext, item: Item, parent: nat, importInternal: bool, kind: PostType): (r: ItemOutcome)
    ensures (r.id.None? && r.errors == []) <==> Hidden(item.doc.tags, importInternal)
    ensures r.id.None? ==> r.store == st
    ensures !Hidden(item.doc.tags, importInternal) && r.id.None? ==>
      r.errors == [UpsertError(kind, item.name, parent)] && env.rejectsPost(Fields(env, item, parent, kind))
    ensures !Hidden(item.doc.tags, importInternal) && !env.rejectsPost(Fields(env, item, parent, kind)) ==> r.id.Some?
    ensures r.id.Some? ==> r.errors == []
    ensures r.id.Some? ==>
      var key := PostKey(env.slug(item.name), kind, parent);
      key in r.store.posts && r.store.posts[key] == PostRecord(r.id.value, Fields(env, item, parent, kind))
    ensures r.id.Some? && PostKey(env.slug(item.name), kind, parent) in st.posts ==>
      r.id.value == st.posts[PostKey(env.slug(item.name), kind, parent)].id
    ensures r.store.posts.Keys <= st.posts.Keys + {PostKey(env.slug(item.name), kind, parent)}
    // nothing but this item's post, its term slots and its meta changes
    ensures forall k :: k != PostKey(env.slug(item.name), kind, parent) ==> Unmoved(st, r.store, k)
    ensures r.id.Some? ==> forall o: ObjectKey :: o.post != r.id.value ==>
      && (o in r.store.objectTerms <==> o in st.objectTerms)
      && (o in st.objectTerms ==> r.store.objectTerms[o] == st.objectTerms[o])
    ensures st.meta <= r.store.meta
    ensures forall p, k :: (p, k) in r.store.meta && (p, k) !in st.meta ==> r.id == Some(p)
    ensures Keeps(st, r.store)
    ensures Valid(st) ==> Valid(r.store)
  {
    if Hidden(item.doc.tags, importInternal) then ItemOutcome(st, [], None)
    else
      var up := Upsert(env, st, Fields(env, item, parent, kind));
      match up.id
      case None => ItemOutcome(st, [UpsertError(kind, item.name, parent)], None)
      case Some(id) =>
        var withTerms := AssignTerms(env, up.store, ctx.fileTerm, id, ItemLabels(ctx, item), kind);
        AssignTermsKeeps(env, up.store, ctx.fileTerm, id, ItemLabels(ctx, item), kind);
        AssignTermsFrame(env, up.store, ctx.fileTerm, id, ItemLabels(ctx, item), kind);
        ValidPostsFrame(up.store, withTerms);
        ValidTermsFrame(st, up.store);
        KeepsTransitive(st, up.store, withTerms);
        ItemOutcome(withTerms, [], Some(id))
  }

  /** Reading the slots back out of the attachment written by `AssignTerms`. */
  lemma PutChainSlots(m: map<ObjectKey, set<TermId>>, post: PostId, t: Resolved, fileTerm: TermId)
    ensures var r := Attached(m, post, t, fileTerm);
      var sinceSlot := ObjectKey(post, SinceVersion);
      var packageSlot := ObjectKey(post, Package);
      && ObjectKey(post, SourceFile) in r && r[ObjectKey(post, SourceFile)] == {fileTerm}
      && (t.since.Some? ==> sinceSlot in r && r[sinceSlot] == {t.since.value})
      && (t.since.None? ==> (sinceSlot in r <==> sinceSlot in m) && (sinceSlot in m ==> r[sinceSlot] == m[sinceSlot]))
      && (t.sub.Some? ==> packageSlot in r && r[packageSlot] == {t.sub.value})
      && (t.sub.None? && t.main.Some? ==> packageSlot in r && r[packageSlot] == {t.main.value})
      && (t.sub.None? && t.main.None? ==>
            (packageSlot in r <==> packageSlot in m) && (packageSlot in m ==> r[packageSlot] == m[packageSlot]))
  {
  }

  /**
   * A successful import leaves the post carrying the file's term, its
   * `@since` term when one resolves, and its subpackage term or else its
   * main package term; when no tag applies, that taxonomy is left as it was.
   * Every label's term lookup is settled afterwards, so each tag whose term
   * WordPress accepts is among the terms attached.
   */
  lemma {:induction false} ImportItemAttaches(env: Env, st: Store, ctx: FileContext, item: Item, parent: nat, importInternal: bool, kind: PostType)
    ensures var r := ImportItem(env, st, ctx, item, parent, importInternal, kind);
      r.id.Some? ==>
        var terms := r.store.objectTerms;
        var t := ResolvedIn(env, r.store, ItemLabels(ctx, item));
        var sinceSlot := ObjectKey(r.id.value, SinceVersion);
        var packageSlot := ObjectKey(r.id.value, Package);
        && ObjectKey(r.id.value, SourceFile) in terms && terms[ObjectKey(r.id.value, SourceFile)] == {ctx.fileTerm}
        && (t.since.Some? ==> sinceSlot in terms && terms[sinceSlot] == {t.since.value})
        && (!HasTag(item.doc.tags, "since") ==>
              (sinceSlot in terms <==> sinceSlot in st.objectTerms)
              && (sinceSlot in st.objectTerms ==> terms[sinceSlot] == st.objectTerms[sinceSlot]))
        && (t.sub.Some? ==> packageSlot in terms && terms[packageSlot] == {t.sub.value})
        && (t.sub.None? && t.main.Some? ==> packageSlot in terms && terms[packageSlot] == {t.main.value})
        && (!HasTag(item.doc.tags, "package") && !HasTag(ctx.doc.tags, "package")
            && !HasTag(item.doc.tags, "subpackage") && !HasTag(ctx.doc.tags, "subpackage") ==>
              (packageSlot in terms <==> packageSlot in st.objectTerms)
              && (packageSlot in st.objectTerms ==> terms[packageSlot] == st.objectTerms[packageSlot]))
        && (forall k :: k in ItemMetaKeys(kind) ==> (r.id.value, k) in r.store.meta)
        && AllSettled(env, r.store, ItemLabels(ctx, item))
  {
    var r := ImportItem(env, st, ctx, item, parent, importInternal, kind);
    if r.id.Some? {
      var id := r.id.value;
      var l := ItemLabels(ctx, item);
      var up := Upsert(env, st, Fields(env, item, parent, kind));
      assert up.id == Some(id);
      assert up.store.objectTerms == st.objectTerms;
      var s := AssignTerms(env, up.store, ctx.fileTerm, id, l, kind);
      assert r.store == s;
      var t := ResolvedIn(env, s, l);
      PutChainSlots(st.objectTerms, id, t, ctx.fileTerm);
      assert !HasTag(item.doc.tags, "since") ==> t.since.None?;
      assert !HasTag(item.doc.tags, "package") && !HasTag(ctx.doc.tags, "package") ==> t.main.None?;
      assert !HasTag(item.doc.tags, "subpackage") && !HasTag(ctx.doc.tags, "subpackage") ==> t.sub.None?;
    }
  }

  /** `AssignTerms` a second time, once all its lookups are settled, leaves the store as it was. */
  lemma AssignTermsTwice(env: Env, st: Store, fileTerm: TermId, post: PostId, l: Labels, kind: PostType)
    ensures var s1 := AssignTerms(env, st, fileTerm, post, l, kind);
      AssignTerms(env, s1, fileTerm, post, l, kind) == s1
  {
    var s1 := AssignTerms(env, st, fileTerm, post, l, kind);
    var s2 := AssignTerms(env, s1, fileTerm, post, l, kind);
    assert s2.terms == s1.terms;
    var t := ResolvedIn(env, s1, l);
    assert ResolvedIn(env, s2, l) == t;
    AttachedTwice(st.objectTerms, post, t, fileTerm);
    assert s2.meta == s1.meta;
  }

  /**
   * Importing the same item again, into the store the first import left,
   * changes nothing and yields the same outcome: no post is created or
   * updated, no term is created, no error is added.
   */
  lemma {:induction false} ImportItemIdempotent(env: Env, st: Store, ctx: FileContext, item: Item, parent: nat, importInternal: bool, kind: PostType)
    ensures var r := ImportItem(env, st, ctx, item, parent, importInternal, kind);
      ImportItem(env, r.store, ctx, item, parent, importInternal, kind) == r
  {
    var r := ImportItem(env, st, ctx, item, parent, importInternal, kind);
    if r.id.Some? {
      var f := Fields(env, item, parent, kind);
      var id := r.id.value;
      var l := ItemLabels(ctx, item);
      var up1 := Upsert(env, st, f);
      assert r.store == AssignTerms(env, up1.store, ctx.fileTerm, id, l, kind);
      var up := Upsert(env, r.store, f);
      assert up.write == Unchanged && up.store == r.store && up.id == Some(id);
      AssignTermsTwice(env, up1.store, ctx.fileTerm, id, l, kind);
    }
  }
}

=== FILE: orchestrator.dfy ===
/**
 * The per-item handlers of the importer: `import_hook`, `import_method`
 * with its hooks, `import_class` with its methods (renamed
 * `Class::method`), and `import_function` with its hooks.
 */
module Orchestrator {
  import opened Wrappers
  import opened Entities
  import opened Store
  import opened PostUpsert
  import opened ItemImport

  /**
   * A hook whose description says it is documented elsewhere, or that has
   * no description at all, is a cross-reference stub.
   */
  predicate IsStub(doc: Docblock) {
    || StartsWith(doc.description, "This action is documented in")
    || StartsWith(doc.description, "This filter is documented in")
    || (doc.description == "" && doc.longDescription == "")
  }

  /** `(int) $id`: a failed or skipped import (`false`) becomes parent 0. */
  function ParentOf(id: Option<PostId>): nat {
    if id.Some? then id.value else 0
  }

  /** The post for `f` sits under its key with exactly these columns. */
  predicate Holds(st: Store, f: PostFields) {
    KeyOf(f) in st.posts && st.posts[KeyOf(f)].fields == f
  }

  /**
   * An item that reached the post write either sits under its key with
   * exactly its columns, or WordPress refused those columns and the error
   * naming the item was recorded.
   */
  predicate Landed(env: Env, st: Store, errors: seq<string>, item: Item, parent: nat, kind: PostType) {
    var f := Fields(env, item, parent, kind);
    Holds(st, f) || (env.rejectsPost(f) && UpsertError(kind, item.name, parent) in errors)
  }

  /** A landed item stays landed while its post is left alone and errors are only appended. */
  lemma LandedStays(env: Env, a: Store, ea: seq<string>, b: Store, eb: seq<string>, item: Item, parent: nat, kind: PostType)
    requires Landed(env, a, ea, item, parent, kind)
    requires Unmoved(a, b, PostKey(env.slug(item.name), kind, parent))
    requires forall m :: m in ea ==> m in eb
    ensures Landed(env, b, eb, item, parent, kind)
  {
  }

  /**
   * Position `i` is the last write under its key: it reaches the post
   * write, and no later sibling that reaches it (`None` marks one that does
   * not) shares its key.
   */
  predicate LastUnder(keys: seq<Option<PostKey>>, i: int) {
    0 <= i < |keys| && keys[i].Some? && forall j :: i < j < |keys| ==> keys[j] != keys[i]
  }

  /** Dropping the first sibling keeps every other position last under its key. */
  lemma LastUnderTail(keys: seq<Option<PostKey>>, i: int)
    requires 0 < i < |keys| && LastUnder(keys, i)
    ensures LastUnder(keys[1..], i - 1)
  {
  }

  /**
   * If the first sibling is last under its key (so `keys[0]` is `Some`: it
   * reaches the write), no later sibling shares its key.
   */
  lemma LastUnderHead(keys: seq<Option<PostKey>>)
    requires LastUnder(keys, 0)
    ensures keys[0] !in keys[1..]
  {
  }

  /**
   * What the handlers rely on from `import_item`: the post sits under its
   * key with the item's columns, a visible item WordPress accepts always
   * gets an id, the one error reported when it does not, a hidden item
   * changes nothing, and no other post, nor its term slots or meta, moves.
   */
  function ImportPost(env: Env, st: Store, ctx: FileContext, item: Item, parent: nat, importInternal: bool, kind: PostType): (r: ItemOutcome)
    ensures var f := Fields(env, item, parent, kind);
      && (r.id.Some? ==> r.errors == [] && KeyOf(f) in r.store.posts && r.store.posts[KeyOf(f)] == PostRecord(r.id.value, f))
      && (!Hidden(item.doc.tags, importInternal) && !env.rejectsPost(f) ==> r.id.Some?)
      && (r.id.None? ==> r.store == st)
      && (r.id.None? && !Hidden(item.doc.tags, importInternal) ==>
            r.errors == [UpsertError(kind, item.name, parent)] && env.rejectsPost(f))
    ensures Hidden(item.doc.tags, importInternal) ==> r == ItemOutcome(st, [], None)
    ensures !Hidden(item.doc.tags, importInternal) ==> Landed(env, r.store, r.errors, item, parent, kind)
    ensures forall k: PostKey :: k != PostKey(env.slug(item.name), kind, parent) ==> Untouched(st, r.store, k)
    ensures Keeps(st, r.store)
    ensures Valid(st) ==> Valid(r.store)
  {
    var r := ImportItem(env, st, ctx, item, parent, importInternal, kind);
    assert forall k: PostKey :: k != PostKey(env.slug(item.name), kind, parent) ==> Untouched(st, r.store, k) by {
      if r.id.Some? {
        OthersUntouched(st, r.store, PostKey(env.slug(item.name), kind, parent), r.id.value);
      }
    }
    r
  }

  /**
   * `import_item` followed, when the post was stored, by the handler's own
   * meta rows `extra` on it: `ImportPost`'s guarantees, and the rows are
   * there.
   */
  function ImportPostWithMeta(env: Env, st: Store, ctx: FileContext, item: Item, parent: nat, importInternal: bool, kind: PostType, extra: set<MetaKey>): (r: ItemOutcome)
    ensures var f := Fields(env, item, parent, kind);
      && (r.id.Some? ==> r.errors == [] && KeyOf(f) in r.store.posts && r.store.posts[KeyOf(f)] == PostRecord(r.id.value, f))
      && (!Hidden(item.doc.tags, importInternal) && !env.rejectsPost(f) ==> r.id.Some?)
      && (r.id.None? ==> r.store == st)
      && (r.id.None? && !Hidden(item.doc.tags, importInternal) ==>
            r.errors == [UpsertError(kind, item.name, parent)] && env.rejectsPost(f))
    ensures Hidden(item.doc.tags, importInternal) ==> r == ItemOutcome(st, [], None)
    ensures !Hidden(item.doc.tags, importInternal) ==> Landed(env, r.store, r.errors, item, parent, kind)
    ensures r.id.Some? ==> forall m :: m in extra ==> (r.id.value, m) in r.store.meta
    ensures forall k: PostKey :: k != PostKey(env.slug(item.name), kind, parent) ==> Untouched(st, r.store, k)
    ensures Keeps(st, r.store)
    ensures Valid(st) ==> Valid(r.store)
  {
    var key := PostKey(env.slug(item.name), kind, parent);
    var posted := ImportPost(env, st, ctx, item, parent, importInternal, kind);
    match posted.id
    case None => posted
    case Some(id) =>
      var withMeta := WriteMeta(posted.store, id, extra);
      OthersUntouched(posted.store, withMeta, key, id);
      assert forall k: PostKey :: k != key ==> Untouched(st, withMeta, k) by {
        forall k: PostKey | k != key
          ensures Untouched(st, withMeta, k)
        {
          UntouchedTransitive(st, posted.store, withMeta, k);
        }
      }
      KeepsTransitive(st, posted.store, withMeta);
      ItemOutcome(withMeta, [], Some(id))
  }

  /** A hook reaches `import_item` and passes its filter. */
  predicate HookImported(h: Hook, importInternal: bool) {
    !IsStub(h.item.doc) && !Hidden(h.item.doc.tags, importInternal)
  }

  function HookKey(env: Env, h: Hook, parent: nat): PostKey {
    PostKey(env.slug(h.item.name), HookPost, parent)
  }

  /** Where a hook's post is written, or `None` when it never reaches the write. */
  function HookWrite(env: Env, h: Hook, parent: nat, importInternal: bool): Option<PostKey> {
    if HookImported(h, importInternal) then Some(HookKey(env, h, parent)) else None
  }

  /** Where each hook of a list is written, in order. */
  function HookKeys(env: Env, hooks: seq<Hook>, parent: nat, importInternal: bool): (r: seq<Option<PostKey>>)
    ensures |r| == |hooks| && forall i :: 0 <= i < |hooks| ==> r[i] == HookWrite(env, hooks[i], parent, importInternal)
  {
    seq(|hooks|, i requires 0 <= i < |hooks| => HookWrite(env, hooks[i], parent, importInternal))
  }

  /**
   * The messages these hooks can record: one per hook that reaches the
   * post write with columns WordPress refuses.
   */
  function HookRefusals(env: Env, hooks: seq<Hook>, parent: nat, importInternal: bool): set<string> {
    set i | 0 <= i < |hooks| && HookImported(hooks[i], importInternal) && env.rejectsPost(Fields(env, hooks[i].item, parent, HookPost))
      :: UpsertError(HookPost, hooks[i].item.name, parent)
  }

  /** A list whose every element lies in `s` starts, if at all, with an element of `s`. */
  lemma FirstWithin(errors: seq<string>, s: set<string>)
    requires forall m :: m in errors ==> m in s
    ensures errors != [] ==> errors[0] in s
  {
  }

  /** When WordPress refuses nothing, no hook can record a refusal. */
  lemma NoHookRefusals(env: Env, hooks: seq<Hook>, parent: nat, importInternal: bool, errors: seq<string>)
    requires AcceptsAll(env)
    requires forall m :: m in errors ==> m in HookRefusals(env, hooks, parent, importInternal)
    ensures errors == []
  {
    FirstWithin(errors, HookRefusals(env, hooks, parent, importInternal));
  }

  /** `import_hook`: stubs never reach `import_item`; a stored hook gets its type as meta. */
  function ImportHook(env: Env, st: Store, ctx: FileContext, h: Hook, parent: nat, importInternal: bool): (r: ItemOutcome)
    ensures !HookImported(h, importInternal) ==> r == ItemOutcome(st, [], None)
    ensures var f := Fields(env, h.item, parent, HookPost);
      && (HookImported(h, importInternal) ==> Landed(env, r.store, r.errors, h.item, parent, HookPost))
      && (HookImported(h, importInternal) && !env.rejectsPost(f) ==> r.id.Some?)
      && (r.id.Some? ==> HookKey(env, h, parent) in r.store.posts && r.store.posts[HookKey(env, h, parent)] == PostRecord(r.id.value, f))
      && (r.errors != [] ==> HookImported(h, importInternal) && env.rejectsPost(f) && r.errors == [UpsertError(HookPost, h.item.name, parent)])
    ensures r.id.Some? ==> r.errors == [] && (r.id.value, HookType) in r.store.meta
    ensures r.id.None? ==> r.store == st
    ensures forall k :: k != HookKey(env, h, parent) ==> Untouched(st, r.store, k)
    ensures Keeps(st, r.store)
    ensures Valid(st) ==> Valid(r.store)
  {
    if IsStub(h.item.doc) then ItemOutcome(st, [], None)
    else ImportPostWithMeta(env, st, ctx, h.item, parent, importInternal, HookPost, {HookType})
  }

  datatype Run = Run(store: Store, errors: seq<string>)

  /**
   * The hooks of one function or method, imported in order under `parent`.
   * Every hook that is the last write under its key holds its columns or
   * had its refusal recorded; only the hook posts written move; every error
   * is the refusal of one of these hooks.
   */
  function ImportHooks(env: Env, st: Store, ctx: FileContext, hooks: seq<Hook>, parent: nat, importInternal: bool): (r: Run)
    ensures forall i :: 0 <= i < |hooks| && HookImported(hooks[i], importInternal) && LastUnder(HookKeys(env, hooks, parent, importInternal), i) ==>
      Landed(env, r.store, r.errors, hooks[i].item, parent, HookPost)
    ensures forall k: PostKey :: Some(k) !in HookKeys(env, hooks, parent, importInternal) ==> Untouched(st, r.store, k)
    ensures forall k: PostKey :: k.postType != HookPost || k.parent != parent ==> Untouched(st, r.store, k)
    ensures forall m :: m in r.errors ==> m in HookRefusals(env, hooks, parent, importInternal)
    ensures Keeps(st, r.store)
    ensures Valid(st) ==> Valid(r.store)
    decreases |hooks|
  {
    if |hooks| == 0 then Run(st, [])
    else
      var h := ImportHook(env, st, ctx, hooks[0], parent, importInternal);
      var rest := ImportHooks(env, h.store, ctx, hooks[1..], parent, importInternal);
      HooksStep(env, hooks, parent, importInternal, st, h.store, h.errors, rest.store, rest.errors);
      KeepsTransitive(st, h.store, rest.store);
      Run(rest.store, h.errors + rest.errors)
  }

  /**
   * One step of the hook loop: the first hook's outcome, followed by the
   * rest of the loop, gives the outcome of the whole loop.
   */
  lemma HooksStep(env: Env, hooks: seq<Hook>, parent: nat, importInternal: bool, s0: Store, a: Store, ea: seq<string>, b: Store, eb: seq<string>)
    requires |hooks| > 0
    requires HookImported(hooks[0], importInternal) ==> Landed(env, a, ea, hooks[0].item, parent, HookPost)
    requires !HookImported(hooks[0], importInternal) ==> a == s0
    requires forall k :: k != HookKey(env, hooks[0], parent) ==> Untouched(s0, a, k)
    requires Valid(s0) ==> Valid(a)
    requires ea != [] ==>
      HookImported(hooks[0], importInternal) && env.rejectsPost(Fields(env, hooks[0].item, parent, HookPost))
      && ea == [UpsertError(HookPost, hooks[0].item.name, parent)]
    requires forall i :: 0 <= i < |hooks[1..]| && HookImported(hooks[1..][i], importInternal) && LastUnder(HookKeys(env, hooks[1..], parent, importInternal), i) ==>
      Landed(env, b, eb, hooks[1..][i].item, parent, HookPost)
    requires forall k: PostKey :: Some(k) !in HookKeys(env, hooks[1..], parent, importInternal) ==> Untouched(a, b, k)
    requires forall m :: m in eb ==> m in HookRefusals(env, hooks[1..], parent, importInternal)
    ensures forall i :: 0 <= i < |hooks| && HookImported(hooks[i], importInternal) && LastUnder(HookKeys(env, hooks, parent, importInternal), i) ==>
      Landed(env, b, ea + eb, hooks[i].item, parent, HookPost)
    ensures forall k: PostKey :: Some(k) !in HookKeys(env, hooks, parent, importInternal) ==> Untouched(s0, b, k)
    ensures forall k: PostKey :: k.postType != HookPost || k.parent != parent ==> Untouched(s0, b, k)
    ensures forall m :: m in ea + eb ==> m in HookRefusals(env, hooks, parent, importInternal)
  {
    var keys := HookKeys(env, hooks, parent, importInternal);
    assert HookKeys(env, hooks[1..], parent, importInternal) == keys[1..];
    forall i | 0 <= i < |hooks| && HookImported(hooks[i], importInternal) && LastUnder(keys, i)
      ensures Landed(env, b, ea + eb, hooks[i].item, parent, HookPost)
    {
      if i == 0 {
        LastUnderHead(keys);
        LandedStays(env, a, ea, b, ea + eb, hooks[0].item, parent, HookPost);
      } else {
        LastUnderTail(keys, i);
        assert hooks[i] == hooks[1..][i - 1];
        LandedStays(env, b, eb, b, ea + eb, hooks[i].item, parent, HookPost);
      }
    }
    forall k: PostKey | Some(k) !in keys
      ensures Untouched(s0, b, k)
    {
      assert keys[0] in keys;
      assert Untouched(s0, a, k);
      assert Some(k) !in keys[1..];
      UntouchedTransitive(s0, a, b, k);
    }
    forall k: PostKey | k.postType != HookPost || k.parent != parent
      ensures Untouched(s0, b, k)
    {
      assert Some(k) !in keys;
    }
    var refusals := HookRefusals(env, hooks, parent, importInternal);
    forall m | m in ea + eb
      ensures m in refusals
    {
      if m in ea {
        assert HookImported(hooks[0], importInternal) && m == UpsertError(HookPost, hooks[0].item.name, parent);
      } else {
        var i :| 0 <= i < |hooks[1..]| && HookImported(hooks[1..][i], importInternal)
          && env.rejectsPost(Fields(env, hooks[1..][i].item, parent, HookPost))
          && m == UpsertError(HookPost, hooks[1..][i].item.name, parent);
        assert hooks[1..][i] == hooks[i + 1];
      }
    }
  }

  /**
   * A handler that writes its own post under `key`, when it stores one (id
   * `id`), and then hook posts under `ParentOf(id)` moves nothing else.
   */
  lemma PostThenHooksFrame(key: PostKey, id: Option<PostId>, s0: Store, a: Store, b: Store)
    requires id.None? ==> a == s0
    requires forall k :: k != key ==> Untouched(s0, a, k)
    requires Valid(s0) ==> Valid(a)
    requires forall k: PostKey :: k.postType != HookPost || k.parent != ParentOf(id) ==> Untouched(a, b, k)
    ensures forall k: PostKey :: (id.None? || k != key) && (k.postType != HookPost || k.parent != ParentOf(id)) ==> Untouched(s0, b, k)
  {
    forall k: PostKey | (id.None? || k != key) && (k.postType != HookPost || k.parent != ParentOf(id))
      ensures Untouched(s0, b, k)
    {
      UntouchedTransitive(s0, a, b, k);
    }
  }

  /** Meta `import_method` writes besides what `import_item` writes. */
  const MethodMeta: set<MetaKey> := {Final, Abstract, Static, Visibility}

  /** Meta `import_class` writes besides what `import_item` writes. */
  const ClassMeta: set<MetaKey> := {Final, Abstract, Extends, Implements, Properties}

  /**
   * `import_method`: the method post under `parent`; its hooks are imported
   * under the method's id only when the method itself was stored.
   */
  function ImportMethod(env: Env, st: Store, ctx: FileContext, m: Method, parent: nat, importInternal: bool): (r: ItemOutcome)
    ensures var f := Fields(env, m.item, parent, MethodPost);
      && (!Hidden(m.item.doc.tags, importInternal) ==> Landed(env, r.store, r.errors, m.item, parent, MethodPost))
      && (!Hidden(m.item.doc.tags, importInternal) && !env.rejectsPost(f) ==> r.id.Some?)
      && (r.id.Some? ==> KeyOf(f) in r.store.posts && r.store.posts[KeyOf(f)] == PostRecord(r.id.value, f))
      && (r.id.None? && !Hidden(m.item.doc.tags, importInternal) ==>
            r.errors == [UpsertError(MethodPost, m.item.name, parent)] && env.rejectsPost(f))
    ensures Hidden(m.item.doc.tags, importInternal) ==> r == ItemOutcome(st, [], None)
    ensures r.id.None? ==> r.store == st
    ensures r.id.Some? ==> forall i :: 0 <= i < |m.hooks| && HookImported(m.hooks[i], importInternal) && LastUnder(HookKeys(env, m.hooks, r.id.value, importInternal), i) ==>
      Landed(env, r.store, r.errors, m.hooks[i].item, r.id.value, HookPost)
    ensures r.id.Some? ==> forall e :: e in r.errors ==> e in HookRefusals(env, m.hooks, r.id.value, importInternal)
    ensures AcceptsAll(env) ==> r.errors == []
    ensures r.id.Some? ==> forall k :: k in MethodMeta ==> (r.id.value, k) in r.store.meta
    ensures var key := PostKey(env.slug(m.item.name), MethodPost, parent);
      forall k: PostKey :: k != key && (k.postType != HookPost || r.id.None? || k.parent != r.id.value) ==> Untouched(st, r.store, k)
    ensures Keeps(st, r.store)
    ensures Valid(st) ==> Valid(r.store)
  {
    var key := PostKey(env.slug(m.item.name), MethodPost, parent);
    var item := ImportPostWithMeta(env, st, ctx, m.item, parent, importInternal, MethodPost, MethodMeta);
    var r := (
      match item.id
      case None => item
      case Some(id) =>
        var hooks := ImportHooks(env, item.store, ctx, m.hooks, id, importInternal);
        PostThenHooksFrame(key, item.id, st, item.store, hooks.store);
        assert Unmoved(item.store, hooks.store, key) by {
          assert Untouched(item.store, hooks.store, key);
        }
        assert AcceptsAll(env) ==> hooks.errors == [] by {
          if AcceptsAll(env) {
            NoHookRefusals(env, m.hooks, id, importInternal, hooks.errors);
          }
        }
        ItemOutcome(hooks.store, hooks.errors, Some(id)));
    r
  }

  /** The name a method is stored under: `Class::method`. */
  function QualifiedName(className: string, methodName: string): string {
    className + "::" + methodName
  }

  function Qualify(className: string, m: Method): Method {
    m.(item := m.item.(name := QualifiedName(className, m.item.name)))
  }

  /** Where a method of the class is stored. */
  function MethodKey(env: Env, className: string, m: Method, classId: PostId): PostKey {
    PostKey(env.slug(QualifiedName(className, m.item.name)), MethodPost, classId)
  }

  /** Where a method's post is written, or `None` when it is filtered out. */
  function MethodWrite(env: Env, className: string, m: Method, classId: PostId, importInternal: bool): Option<PostKey> {
    if Hidden(m.item.doc.tags, importInternal) then None else Some(MethodKey(env, className, m, classId))
  }

  /** Where each method of a class is written, in order. */
  function MethodKeys(env: Env, className: string, methods: seq<Method>, classId: PostId, importInternal: bool): (r: seq<Option<PostKey>>)
    ensures |r| == |methods|
    ensures forall i :: 0 <= i < |methods| ==> r[i] == MethodWrite(env, className, methods[i], classId, importInternal)
  {
    seq(|methods|, i requires 0 <= i < |methods| => MethodWrite(env, className, methods[i], classId, importInternal))
  }

  /**
   * One step of the method loop: the first method's outcome, followed by
   * the rest of the loop, gives the outcome of the whole loop.
   */
  lemma MethodsStep(env: Env, className: string, methods: seq<Method>, classId: PostId, importInternal: bool, s0: Store, a: Store, ea: seq<string>, b: Store, eb: seq<string>)
    requires |methods| > 0
    requires !Hidden(methods[0].item.doc.tags, importInternal) ==> Landed(env, a, ea, Qualify(className, methods[0]).item, classId, MethodPost)
    requires Hidden(methods[0].item.doc.tags, importInternal) ==> a == s0
    requires forall k: PostKey :: k != MethodKey(env, className, methods[0], classId) && k.postType != HookPost ==> Untouched(s0, a, k)
    requires Valid(s0) ==> Valid(a)
    requires forall i :: 0 <= i < |methods[1..]| && !Hidden(methods[1..][i].item.doc.tags, importInternal) && LastUnder(MethodKeys(env, className, methods[1..], classId, importInternal), i) ==>
      Landed(env, b, eb, Qualify(className, methods[1..][i]).item, classId, MethodPost)
    requires forall k: PostKey :: k.postType != HookPost && Some(k) !in MethodKeys(env, className, methods[1..], classId, importInternal) ==> Untouched(a, b, k)
    requires forall k: PostKey :: k.postType != HookPost && (k.postType != MethodPost || k.parent != classId) ==> Untouched(a, b, k)
    ensures forall i :: 0 <= i < |methods| && !Hidden(methods[i].item.doc.tags, importInternal) && LastUnder(MethodKeys(env, className, methods, classId, importInternal), i) ==>
      Landed(env, b, ea + eb, Qualify(className, methods[i]).item, classId, MethodPost)
    ensures forall k: PostKey :: k.postType != HookPost && Some(k) !in MethodKeys(env, className, methods, classId, importInternal) ==> Untouched(s0, b, k)
    ensures forall k: PostKey :: k.postType != HookPost && (k.postType != MethodPost || k.parent != classId) ==> Untouched(s0, b, k)
  {
    var keys := MethodKeys(env, className, methods, classId, importInternal);
    assert MethodKeys(env, className, methods[1..], classId, importInternal) == keys[1..];
    forall i | 0 <= i < |methods| && !Hidden(methods[i].item.doc.tags, importInternal) && LastUnder(keys, i)
      ensures Landed(env, b, ea + eb, Qualify(className, methods[i]).item, classId, MethodPost)
    {
      if i == 0 {
        LastUnderHead(keys);
        LandedStays(env, a, ea, b, ea + eb, Qualify(className, methods[0]).item, classId, MethodPost);
      } else {
        LastUnderTail(keys, i);
        assert methods[i] == methods[1..][i - 1];
        LandedStays(env, b, eb, b, ea + eb, Qualify(className, methods[i]).item, classId, MethodPost);
      }
    }
    forall k: PostKey | k.postType != HookPost && Some(k) !in keys
      ensures Untouched(s0, b, k)
    {
      assert keys[0] in keys;
      assert Untouched(s0, a, k);
      assert Some(k) !in keys[1..];
      UntouchedTransitive(s0, a, b, k);
    }
    forall k: PostKey | k.postType != HookPost && (k.postType != MethodPost || k.parent != classId)
      ensures Untouched(s0, b, k)
    {
      UntouchedTransitive(s0, a, b, k);
    }
  }

  /**
   * The methods of one class, renamed and imported in order under the
   * class's post.  Every visible method that is the last write under its
   * key holds its columns or had its refusal recorded; besides hooks, only
   * the method posts written move.
   */
  function ImportMethods(env: Env, st: Store, ctx: FileContext, className: string, methods: seq<Method>, classId: PostId, importInternal: bool): (r: Run)
    ensures forall i :: 0 <= i < |methods| && !Hidden(methods[i].item.doc.tags, importInternal) && LastUnder(MethodKeys(env, className, methods, classId, importInternal), i) ==>
      Landed(env, r.store, r.errors, Qualify(className, methods[i]).item, classId, MethodPost)
    ensures forall k: PostKey :: k.postType != HookPost && Some(k) !in MethodKeys(env, className, methods, classId, importInternal) ==> Untouched(st, r.store, k)
    ensures forall k: PostKey :: k.postType != HookPost && (k.postType != MethodPost || k.parent != classId) ==> Untouched(st, r.store, k)
    ensures AcceptsAll(env) ==> r.errors == []
    ensures Keeps(st, r.store)
    ensures Valid(st) ==> Valid(r.store)
    decreases |methods|
  {
    if |methods| == 0 then Run(st, [])
    else
      var m := ImportMethod(env, st, ctx, Qualify(className, methods[0]), classId, importInternal);
      var rest := ImportMethods(env, m.store, ctx, className, methods[1..], classId, importInternal);
      MethodsStep(env, className, methods, classId, importInternal, st, m.store, m.errors, rest.store, rest.errors);
      KeepsTransitive(st, m.store, rest.store);
      Run(rest.store, m.errors + rest.errors)
  }

  /**
   * A class that writes its own post under `key`, with id `id`, and then
   * method posts under `id` (and their hooks) moves nothing else.
   */
  lemma PostThenMethodsFrame(key: PostKey, id: PostId, s0: Store, a: Store, b: Store)
    requires forall k :: k != key ==> Untouched(s0, a, k)
    requires Valid(s0) ==> Valid(a)
    requires forall k: PostKey :: k.postType != HookPost && (k.postType != MethodPost || k.parent != id) ==> Untouched(a, b, k)
    ensures forall k: PostKey :: k != key && k.postType != HookPost && (k.postType != MethodPost || k.parent != id) ==> Untouched(s0, b, k)
  {
    forall k: PostKey | k != key && k.postType != HookPost && (k.postType != MethodPost || k.parent != id)
      ensures Untouched(s0, b, k)
    {
      UntouchedTransitive(s0, a, b, k);
    }
  }

  /**
   * `import_class`: the class post at the top level, then its methods under
   * the class's id; when the class is not stored, no method is imported.
   */
  function ImportClass(env: Env, st: Store, ctx: FileContext, c: Class, importInternal: bool): (r: ItemOutcome)
    ensures var f := Fields(env, c.item, 0, ClassPost);
      && (!Hidden(c.item.doc.tags, importInternal) ==> Landed(env, r.store, r.errors, c.item, 0, ClassPost))
      && (!Hidden(c.item.doc.tags, importInternal) && !env.rejectsPost(f) ==> r.id.Some?)
      && (r.id.Some? ==> KeyOf(f) in r.store.posts && r.store.posts[KeyOf(f)] == PostRecord(r.id.value, f))
      && (r.id.None? && !Hidden(c.item.doc.tags, importInternal) ==>
            r.errors == [UpsertError(ClassPost, c.item.name, 0)] && env.rejectsPost(f))
    ensures Hidden(c.item.doc.tags, importInternal) ==> r == ItemOutcome(st, [], None)
    ensures r.id.None? ==> r.store == st
    ensures r.id.Some? ==> forall i :: 0 <= i < |c.methods| && !Hidden(c.methods[i].item.doc.tags, importInternal) && LastUnder(MethodKeys(env, c.item.name, c.methods, r.id.value, importInternal), i) ==>
      Landed(env, r.store, r.errors, Qualify(c.item.name, c.methods[i]).item, r.id.value, MethodPost)
    ensures r.id.Some? ==> forall k :: k in ClassMeta ==> (r.id.value, k) in r.store.meta
    ensures var key := PostKey(env.slug(c.item.name), ClassPost, 0);
      forall k: PostKey :: k != key && k.postType != HookPost && (k.postType != MethodPost || r.id.None? || k.parent != r.id.value) ==>
        Untouched(st, r.store, k)
    ensures AcceptsAll(env) ==> r.errors == []
    ensures Keeps(st, r.store)
    ensures Valid(st) ==> Valid(r.store)
  {
    var key := PostKey(env.slug(c.item.name), ClassPost, 0);
    var item := ImportPostWithMeta(env, st, ctx, c.item, 0, importInternal, ClassPost, ClassMeta);
    var r := (
      match item.id
      case None => item
      case Some(id) =>
        var methods := ImportMethods(env, item.store, ctx, c.item.name, c.methods, id, importInternal);
        PostThenMethodsFrame(key, id, st, item.store, methods.store);
        assert Unmoved(item.store, methods.store, key) by {
          assert Untouched(item.store, methods.store, key);
        }
        ItemOutcome(methods.store, methods.errors, Some(id)));
    r
  }

  /**
   * The errors of `import_function`: its own refusal, when it was not
   * stored, followed by its hooks' refusals.
   */
  lemma FunctionErrors(env: Env, f: Function, parent: nat, importInternal: bool, id: Option<PostId>, ea: seq<string>, eb: seq<string>)
    requires id.Some? || Hidden(f.item.doc.tags, importInternal) ==> ea == []
    requires id.None? && !Hidden(f.item.doc.tags, importInternal) ==>
      ea == [UpsertError(FunctionPost, f.item.name, parent)] && env.rejectsPost(Fields(env, f.item, parent, FunctionPost))
    requires forall m :: m in eb ==> m in HookRefusals(env, f.hooks, ParentOf(id), importInternal)
    ensures forall e :: e in ea + eb ==>
      || e in HookRefusals(env, f.hooks, ParentOf(id), importInternal)
      || (id.None? && env.rejectsPost(Fields(env, f.item, parent, FunctionPost)) && e == UpsertError(FunctionPost, f.item.name, parent))
    ensures AcceptsAll(env) ==> ea + eb == []
  {
    if AcceptsAll(env) {
      NoHookRefusals(env, f.hooks, ParentOf(id), importInternal, eb);
    }
  }

  /**
   * `import_function`: the function post under `parent`, then its hooks
   * under the function's id, or under 0 when the function was not stored.
   * (PHP discards the id; it is kept here to state where the hooks go.)
   */
  function ImportFunction(env: Env, st: Store, ctx: FileContext, f: Function, parent: nat, importInternal: bool): (r: ItemOutcome)
    ensures var fields := Fields(env, f.item, parent, FunctionPost);
      && (!Hidden(f.item.doc.tags, importInternal) ==> Landed(env, r.store, r.errors, f.item, parent, FunctionPost))
      && (!Hidden(f.item.doc.tags, importInternal) && !env.rejectsPost(fields) ==> r.id.Some?)
      && (r.id.Some? ==> KeyOf(fields) in r.store.posts && r.store.posts[KeyOf(fields)] == PostRecord(r.id.value, fields))
      && (r.id.None? && !Hidden(f.item.doc.tags, importInternal) ==> UpsertError(FunctionPost, f.item.name, parent) in r.errors)
      && (forall e :: e in r.errors ==>
            || e in HookRefusals(env, f.hooks, ParentOf(r.id), importInternal)
            || (r.id.None? && env.rejectsPost(fields) && e == UpsertError(FunctionPost, f.item.name, parent)))
    ensures Hidden(f.item.doc.tags, importInternal) ==> r.id.None?
    ensures AcceptsAll(env) ==> r.errors == []
    ensures forall i :: 0 <= i < |f.hooks| && HookImported(f.hooks[i], importInternal) && LastUnder(HookKeys(env, f.hooks, ParentOf(r.id), importInternal), i) ==>
      Landed(env, r.store, r.errors, f.hooks[i].item, ParentOf(r.id), HookPost)
    ensures var key := PostKey(env.slug(f.item.name), FunctionPost, parent);
      forall k: PostKey :: (r.id.None? || k != key) && (k.postType != HookPost || k.parent != ParentOf(r.id)) ==> Untouched(st, r.store, k)
    ensures Keeps(st, r.store)
    ensures Valid(st) ==> Valid(r.store)
  {
    var item := ImportPost(env, st, ctx, f.item, parent, importInternal, FunctionPost);
    var hooks := ImportHooks(env, item.store, ctx, f.hooks, ParentOf(item.id), importInternal);
    var fields := Fields(env, f.item, parent, FunctionPost);
    assert Unmoved(item.store, hooks.store, KeyOf(fields));
    assert !Hidden(f.item.doc.tags, importInternal) ==> Landed(env, hooks.store, item.errors + hooks.errors, f.item, parent, FunctionPost) by {
      if !Hidden(f.item.doc.tags, importInternal) {
        LandedStays(env, item.store, item.errors, hooks.store, item.errors + hooks.errors, f.item, parent, FunctionPost);
      }
    }
    FunctionErrors(env, f, parent, importInternal, item.id, item.errors, hooks.errors);
    PostThenHooksFrame(KeyOf(fields), item.id, st, item.store, hooks.store);
    KeepsTransitive(st, item.store, hooks.store);
    ItemOutcome(hooks.store, item.errors + hooks.errors, item.id)
  }
}

=== FILE: store.dfy ===
/**
 * The WordPress store the importer reconciles into, as an immutable record:
 * posts indexed by (slug, post type, parent), terms indexed by (taxonomy,
 * slug, parent), the terms attached to each post per taxonomy, and which
 * meta keys have been written.  Store failures, `sanitize_title` and the
 * WordPress error messages are not computed here: they come from an
 * environment `Env` the caller supplies.
 */
module Store {
  import opened Wrappers

  type PostId = nat
  type TermId = nat

  /** The importer's four post types. */
  datatype PostType = ClassPost | MethodPost | FunctionPost | HookPost

  /** The importer's three taxonomies. */
  datatype Taxonomy = SourceFile | SinceVersion | Package

  /** Post meta keys the importer writes; their payloads are not modelled. */
  datatype MetaKey =
    | Args | LineNum | EndLineNum | Tags | HookType
    | Final | Abstract | Static | Visibility | Extends | Implements | Properties

  /** The post columns the importer writes and compares. */
  datatype PostFields = PostFields(
    content: string,
    excerpt: string,
    slug: string,
    parent: nat,
    status: string,
    title: string,
    postType: PostType)

  /** The lookup key `post_name = %s AND post_type = %s AND post_parent = %d`. */
  datatype PostKey = PostKey(slug: string, postType: PostType, parent: nat)

  datatype PostRecord = PostRecord(id: PostId, fields: PostFields)

  /** Terms are found by slug within a taxonomy, under a parent term (0 = top level). */
  datatype TermKey = TermKey(taxonomy: Taxonomy, slug: string, parent: nat)

  /** The slot `wp_set_object_terms` writes: one post, one taxonomy. */
  datatype ObjectKey = ObjectKey(post: PostId, taxonomy: Taxonomy)

  datatype Store = Store(
    posts: map<PostKey, PostRecord>,
    nextPost: PostId,
    terms: map<TermKey, TermId>,
    nextTerm: TermId,
    objectTerms: map<ObjectKey, set<TermId>>,
    meta: set<(PostId, MetaKey)>)

  /**
   * What the model leaves to WordPress: `sanitize_title`, whether a post
   * write is refused, and whether (with which message) `wp_insert_term`
   * refuses a term.
   */
  datatype Env = Env(
    slug: string -> string,
    rejectsPost: PostFields -> bool,
    rejectsTerm: TermKey -> Option<string>)

  /** WordPress refuses no post write. */
  ghost predicate AcceptsAll(env: Env) {
    forall f :: !env.rejectsPost(f)
  }

  function KeyOf(f: PostFields): PostKey {
    PostKey(f.slug, f.postType, f.parent)
  }

  /**
   * Post invariant: the id counter is positive, every post sits under the
   * key of its own fields, and post ids are positive, below the counter and
   * distinct.
   */
  predicate ValidPosts(st: Store) {
    && 0 < st.nextPost
    && (forall k :: k in st.posts ==> KeyOf(st.posts[k].fields) == k && 0 < st.posts[k].id < st.nextPost)
    && (forall k1, k2 :: k1 in st.posts && k2 in st.posts && k1 != k2 ==> st.posts[k1].id != st.posts[k2].id)
  }

  /** Term invariant: term ids are positive and below the term counter. */
  predicate ValidTerms(st: Store) {
    && 0 < st.nextTerm
    && (forall k :: k in st.terms ==> 0 < st.terms[k] < st.nextTerm)
  }

  predicate Valid(st: Store) {
    ValidPosts(st) && ValidTerms(st)
  }

  /** Posts are never removed and keep their ids. */
  predicate PostsGrow(a: Store, b: Store) {
    forall k :: k in a.posts ==> k in b.posts && b.posts[k].id == a.posts[k].id
  }

  /** Terms are never removed or renumbered. */
  predicate TermsKept(a: Store, b: Store) {
    forall k :: k in a.terms ==> k in b.terms && b.terms[k] == a.terms[k]
  }

  /** The post under `k`, if there was one, is exactly as it was. */
  predicate Unmoved(a: Store, b: Store, k: PostKey) {
    k in a.posts ==> k in b.posts && b.posts[k] == a.posts[k]
  }

  /** The terms attached to post `p`, per taxonomy. */
  function SlotsOf(st: Store, p: PostId): map<Taxonomy, set<TermId>> {
    map o | o in st.objectTerms && o.post == p :: o.taxonomy := st.objectTerms[o]
  }

  /** The meta keys written on post `p`. */
  function MetaOf(st: Store, p: PostId): set<MetaKey> {
    set q | q in st.meta && q.0 == p :: q.1
  }

  /** The term slots and meta rows of post `p` are exactly as they were. */
  predicate SameExtras(a: Store, b: Store, p: PostId) {
    SlotsOf(a, p) == SlotsOf(b, p) && MetaOf(a, p) == MetaOf(b, p)
  }

  /**
   * The post under `k`, if there was one, is exactly as it was; in a valid
   * store, where post ids are distinct, so are its term slots and meta rows.
   */
  predicate Untouched(a: Store, b: Store, k: PostKey) {
    && Unmoved(a, b, k)
    && (Valid(a) && k in a.posts ==> SameExtras(a, b, a.posts[k].id))
  }

  /** Chaining two steps that leave the post under `k` alone. */
  lemma UntouchedTransitive(a: Store, b: Store, c: Store, k: PostKey)
    requires Untouched(a, b, k) && Untouched(b, c, k)
    requires Valid(a) ==> Valid(b)
    ensures Untouched(a, c, k)
  {
  }

  /**
   * A step that writes only the post under `key` (with id `p`), the term
   * slots of `p` and meta rows of `p` leaves every other post untouched:
   * in a valid store, the other posts have ids other than `p`.
   */
  lemma OthersUntouched(a: Store, b: Store, key: PostKey, p: PostId)
    requires Valid(a) ==> Valid(b)
    requires key in b.posts && b.posts[key].id == p
    requires forall k :: k != key ==> Unmoved(a, b, k)
    requires forall o: ObjectKey :: o.post != p ==>
      && (o in b.objectTerms <==> o in a.objectTerms)
      && (o in a.objectTerms ==> b.objectTerms[o] == a.objectTerms[o])
    requires forall q, m :: q != p ==> ((q, m) in b.meta <==> (q, m) in a.meta)
    ensures forall k :: k != key ==> Untouched(a, b, k)
  {
    forall k | k != key && Valid(a) && k in a.posts
      ensures SameExtras(a, b, a.posts[k].id)
    {
      assert Unmoved(a, b, k);
      assert a.posts[k].id != p;
    }
  }

  /** Neither posts, terms nor meta rows are ever removed, and posts and terms keep their ids. */
  predicate Keeps(a: Store, b: Store) {
    PostsGrow(a, b) && TermsKept(a, b) && a.meta <= b.meta
  }

  /**
   * Terms are never removed or renumbered, and every term that appears is
   * one WordPress would accept.
   */
  predicate TermsGrow(env: Env, a: Store, b: Store) {
    && TermsKept(a, b)
    && (forall k :: k in b.terms && k !in a.terms ==> env.rejectsTerm(k).None?)
  }

  /** A term lookup whose outcome can no longer change: the term exists, or creating it is refused. */
  predicate Settled(env: Env, st: Store, key: TermKey) {
    key in st.terms || env.rejectsTerm(key).Some?
  }

  /** Chaining two steps that only add terms WordPress accepts. */
  lemma TermsGrowTransitive(env: Env, a: Store, b: Store, c: Store)
    requires TermsGrow(env, a, b) && TermsGrow(env, b, c)
    ensures TermsGrow(env, a, c)
  {
  }

  /** The post invariant depends on the posts and the post counter only. */
  lemma ValidPostsFrame(a: Store, b: Store)
    requires b.posts == a.posts && b.nextPost == a.nextPost
    ensures ValidPosts(a) ==> ValidPosts(b)
  {
  }

  /** The term invariant depends on the terms and the term counter only. */
  lemma ValidTermsFrame(a: Store, b: Store)
    requires b.terms == a.terms && b.nextTerm == a.nextTerm
    ensures ValidTerms(a) ==> ValidTerms(b)
  {
  }

  /** Chaining two steps that keep every post and term. */
  lemma KeepsTransitive(a: Store, b: Store, c: Store)
    requires Keeps(a, b) && Keeps(b, c)
    ensures Keeps(a, c)
  {
  }

  datatype TermOutcome = TermOutcome(store: Store, term: Result<TermId>)

  /**
   * `term_exists` followed, when it finds nothing, by `wp_insert_term`:
   * the term for `key`, created if it was missing and WordPress accepts it.
   */
  function ResolveTerm(env: Env, st: Store, key: TermKey): (r: TermOutcome)
    ensures r.term.Success? ==> key in r.store.terms && r.store.terms[key] == r.term.value
    ensures key in st.terms ==> r.store == st && r.term.Success?
    ensures r.term.Failure? ==> r.store == st && key !in st.terms && env.rejectsTerm(key) == Some(r.term.error)
    ensures !Settled(env, st, key) ==> r.term.Success?
    ensures ValidTerms(st) && key !in st.terms && r.term.Success? ==> r.term.value !in st.terms.Values
    ensures Settled(env, r.store, key)
    ensures Settled(env, st, key) ==> r.store == st
    ensures r.store.terms.Keys <= st.terms.Keys + {key}
    ensures r.store == st.(terms := r.store.terms, nextTerm := r.store.nextTerm)
    ensures TermsGrow(env, st, r.store)
    ensures Keeps(st, r.store)
    ensures ValidTerms(st) ==> ValidTerms(r.store)
    ensures Valid(st) ==> Valid(r.store)
  {
    if key in st.terms then TermOutcome(st, Success(st.terms[key]))
    else
      match env.rejectsTerm(key)
      case Some(msg) => TermOutcome(st, Failure(msg))
      case None =>
        TermOutcome(st.(terms := st.terms[key := st.nextTerm], nextTerm := st.nextTerm + 1), Success(st.nextTerm))
  }

  /** `wp_set_object_terms` without append: the post's terms in that taxonomy become exactly `ts`. */
  function SetObjectTerms(st: Store, post: PostId, tax: Taxonomy, ts: set<TermId>): (r: Store)
    ensures ObjectKey(post, tax) in r.objectTerms && r.objectTerms[ObjectKey(post, tax)] == ts
    ensures forall k :: k != ObjectKey(post, tax) ==> (k in r.objectTerms <==> k in st.objectTerms)
    ensures forall k :: k != ObjectKey(post, tax) && k in st.objectTerms ==> r.objectTerms[k] == st.objectTerms[k]
    ensures r == st.(objectTerms := r.objectTerms)
  {
    st.(objectTerms := st.objectTerms[ObjectKey(post, tax) := ts])
  }

  /** The (post, key) pairs that writing `keys` on `post` records. */
  function MetaEntries(post: PostId, keys: set<MetaKey>): (r: set<(PostId, MetaKey)>)
    ensures forall k :: k in keys <==> (post, k) in r
    ensures forall p, k :: (p, k) in r ==> p == post
  {
    set k | k in keys :: (post, k)
  }

  /** `update_post_meta` for each key in `keys`. */
  function WriteMeta(st: Store, post: PostId, keys: set<MetaKey>): (r: Store)
    ensures forall p, k :: (p, k) in r.meta <==> (p, k) in st.meta || (p == post && k in keys)
    ensures r.posts == st.posts && r.nextPost == st.nextPost
    ensures r.terms == st.terms && r.nextTerm == st.nextTerm
    ensures r.objectTerms == st.objectTerms
    ensures ValidPosts(st) ==> ValidPosts(r)
    ensures ValidTerms(st) ==> ValidTerms(r)
    ensures Valid(st) ==> Valid(r)
    ensures Keeps(st, r)
  {
    st.(meta := st.meta + MetaEntries(post, keys))
  }
}

=== FILE: term_cache.dfy ===
/**
 * `insert_term`: a per-run memo of terms already found or created, keyed
 * by taxonomy and term name.  A miss looks the term up under the requested
 * parent and creates it when it does not exist; only successes are
 * remembered.  The memo key does not include the parent.
 */
module TermCache {
  import opened Wrappers
  import opened Store

  /** `$this->inserted_terms`: taxonomy and term name to the term found or created. */
  type Cache = map<(Taxonomy, string), TermId>

  datatype CacheOutcome = CacheOutcome(cache: Cache, store: Store, term: Result<TermId>)

  /** Every remembered term is still a term of the store. */
  predicate Coherent(cache: Cache, st: Store) {
    forall k :: k in cache ==> cache[k] in st.terms.Values
  }

  function InsertTerm(env: Env, cache: Cache, st: Store, termName: string, tax: Taxonomy, parent: nat): (r: CacheOutcome)
    // a hit answers from the memo and leaves the store alone
    ensures (tax, termName) in cache ==> r == CacheOutcome(cache, st, Success(cache[(tax, termName)]))
    // a miss asks the store under the requested parent
    ensures var key := TermKey(tax, env.slug(termName), parent);
      (tax, termName) !in cache ==>
        && (r.term.Success? ==> key in r.store.terms && r.store.terms[key] == r.term.value)
        && (key in st.terms ==> r.term == Success(st.terms[key]) && r.store == st)
        && (r.term.Failure? ==> key !in st.terms && env.rejectsTerm(key) == Some(r.term.error))
    // successes are remembered, failures are not and change nothing
    ensures r.term.Success? ==> (tax, termName) in r.cache && r.cache[(tax, termName)] == r.term.value
    ensures r.term.Failure? ==> r.cache == cache && r.store == st && (tax, termName) !in r.cache
    ensures r.cache.Keys <= cache.Keys + {(tax, termName)}
    ensures forall k :: k in cache ==> k in r.cache && r.cache[k] == cache[k]
    ensures TermsGrow(env, st, r.store)
    ensures Coherent(cache, st) ==> Coherent(r.cache, r.store)
  {
    if (tax, termName) in cache then CacheOutcome(cache, st, Success(cache[(tax, termName)]))
    else
      var t := ResolveTerm(env, st, TermKey(tax, env.slug(termName), parent));
      match t.term
      case Success(id) => CacheOutcome(cache[(tax, termName) := id], t.store, t.term)
      case Failure(_) => CacheOutcome(cache, t.store, t.term)
  }

  /**
   * A second call for the same taxonomy and name returns the same term
   * from the memo, whatever parent it asks for, and writes nothing.
   */
  lemma {:induction false} InsertTermMemoised(env: Env, cache: Cache, st: Store, termName: string, tax: Taxonomy, parent: nat, parent2: nat)
    requires InsertTerm(env, cache, st, termName, tax, parent).term.Success?
    ensures var r := InsertTerm(env, cache, st, termName, tax, parent);
      InsertTerm(env, r.cache, r.store, termName, tax, parent2) == r
  {
  }

  /**
   * A refused insert is not remembered: calling again goes back to the
   * store, which refuses it the same way.
   */
  lemma {:induction false} InsertTermRetriesFailure(env: Env, cache: Cache, st: Store, termName: string, tax: Taxonomy, parent: nat)
    requires InsertTerm(env, cache, st, termName, tax, parent).term.Failure?
    ensures var r := InsertTerm(env, cache, st, termName, tax, parent);
      && (tax, termName) !in r.cache
      && InsertTerm(env, r.cache, r.store, termName, tax, parent) == r
  {
  }
}

=== FILE: upsert.dfy ===
/**
 * The lookup-before-write step of `import_item`: build the post columns,
 * look for an existing post under (slug, post type, parent), update it only
 * when some column differs, insert otherwise, and name the item in an error
 * string when WordPress refuses the write.
 */
module PostUpsert {
  import opened Wrappers
  import opened Entities
  import opened Store

  datatype Write = Inserted | Updated | Unchanged | Rejected

  datatype UpsertOutcome = UpsertOutcome(store: Store, write: Write, id: Option<PostId>)

  /** The post columns `import_item` builds for an item (its `$post_data`). */
  function Fields(env: Env, item: Item, parent: nat, kind: PostType): (f: PostFields)
    ensures KeyOf(f) == PostKey(env.slug(item.name), kind, parent)
    ensures f.title == item.name && f.status == "publish"
    ensures f.content == item.doc.longDescription && f.excerpt == item.doc.description
  {
    PostFields(item.doc.longDescription, item.doc.description, env.slug(item.name), parent, "publish", item.name, kind)
  }

  /**
   * Reuse the post found under the columns' key, updating it only when a
   * column differs (`array_diff_assoc` non-empty); insert a new post when
   * none is found.  A refused write changes nothing.
   */
  function Upsert(env: Env, st: Store, f: PostFields): (r: UpsertOutcome)
    ensures r.id.None? <==> r.write == Rejected
    ensures r.write == Rejected ==> r.store == st && env.rejectsPost(f)
    ensures !env.rejectsPost(f) ==> r.id.Some?
    ensures r.id.Some? ==> KeyOf(f) in r.store.posts && r.store.posts[KeyOf(f)] == PostRecord(r.id.value, f)
    // an existing post is reused, never duplicated, and rewritten only when it differs
    ensures KeyOf(f) in st.posts ==> r.write != Inserted
    ensures KeyOf(f) in st.posts && r.id.Some? ==> r.id.value == st.posts[KeyOf(f)].id
    ensures KeyOf(f) in st.posts ==> (r.write == Unchanged <==> st.posts[KeyOf(f)].fields == f)
    ensures r.write == Unchanged ==> r.store == st
    // a missing post is created with an id no other post has
    ensures KeyOf(f) !in st.posts ==> r.write == Inserted || r.write == Rejected
    ensures ValidPosts(st) && r.write == Inserted ==> forall k :: k in st.posts ==> st.posts[k].id != r.id.value
    // nothing but this one post changes
    ensures forall k :: k in st.posts && k != KeyOf(f) ==> k in r.store.posts && r.store.posts[k] == st.posts[k]
    ensures r.store.posts.Keys <= st.posts.Keys + {KeyOf(f)}
    ensures r.store == st.(posts := r.store.posts, nextPost := r.store.nextPost)
    ensures Keeps(st, r.store)
    ensures ValidPosts(st) ==> ValidPosts(r.store)
  {
    var key := KeyOf(f);
    if key in st.posts then
      var existing := st.posts[key];
      if existing.fields == f then UpsertOutcome(st, Unchanged, Some(existing.id))
      else if env.rejectsPost(f) then UpsertOutcome(st, Rejected, None)
      else UpsertOutcome(st.(posts := st.posts[key := PostRecord(existing.id, f)]), Updated, Some(existing.id))
    else if env.rejectsPost(f) then UpsertOutcome(st, Rejected, None)
    else
      UpsertOutcome(
        st.(posts := st.posts[key := PostRecord(st.nextPost, f)], nextPost := st.nextPost + 1),
        Inserted, Some(st.nextPost))
  }

  /** The word the error message uses for each post type. */
  function KindWord(kind: PostType): string {
    match kind
    case ClassPost => "class"
    case MethodPost => "method"
    case HookPost => "hook"
    case FunctionPost => "function"
  }

  /** Log indentation: methods and nested hooks are indented twice. */
  function Indent(kind: PostType, parent: nat): string {
    match kind
    case MethodPost => "\t\t"
    case HookPost => if parent != 0 then "\t\t" else "\t"
    case _ => "\t"
  }

  /**
   * The error string recorded when the post write fails.  The WordPress
   * error message is passed to `sprintf` as an extra argument that the
   * format never uses, so it does not appear.
   */
  function UpsertError(kind: PostType, name: string, parent: nat): (msg: string)
    ensures EndsWith(msg, KindWord(kind) + " \"" + name + "\"")
    ensures StartsWith(msg, Indent(kind, parent) + "Problem inserting/updating post for ")
  {
    var head := Indent(kind, parent) + "Problem inserting/updating post for ";
    var tail := KindWord(kind) + " \"" + name + "\"";
    assert (head + tail)[..|head|] == head;
    assert (head + tail)[|head + tail| - |tail|..] == tail;
    head + tail
  }

  /** Equal strings with the same head and tail have the same middle. */
  lemma CancelAround(head: string, a: string, b: string, tail: string)
    requires head + a + tail == head + b + tail
    ensures a == b
  {
    assert |a| == |b|;
    assert a == (head + a + tail)[|head|..|head| + |a|];
    assert b == (head + b + tail)[|head|..|head| + |b|];
  }

  /**
   * The message identifies the item: for one kind and parent, two items
   * with different names never produce the same message.
   */
  lemma {:induction false} UpsertErrorNamesItem(kind: PostType, parent: nat, name1: string, name2: string)
    requires UpsertError(kind, name1, parent) == UpsertError(kind, name2, parent)
    ensures name1 == name2
  {
    var head := Indent(kind, parent) + "Problem inserting/updating post for " + KindWord(kind) + " \"";
    assert UpsertError(kind, name1, parent) == head + name1 + "\"";
    assert UpsertError(kind, name2, parent) == head + name2 + "\"";
    CancelAround(head, name1, name2, "\"");
  }
}

=== FILE: wrappers.dfy ===
/** Failure-compatible result types used throughout the importer model. */
module Wrappers {

  /** A value that may be absent: PHP's `false`/`null` returns become `None`. */
  datatype Option<+T> = None | Some(value: T)

  /** A store call that either yields a value or a WordPress error message. */
  datatype Result<+T> = Success(value: T) | Failure(error: string)
}
